=== FILE: README.md ===
# AmbariMetrics collector, modelled in Dafny

A model of the collectd plugin `AmbariMetrics`, which polls an Ambari Metrics
Collector and hands its samples to collectd. The plugin has two entry points, and the
model covers both:

- `config` walks collectd's configuration tree. The result is one upstream endpoint (the
  collector's host and port) and an ordered list of application groups. Each group has an
  application id, host names and metric names.
- `read` is one poll cycle. For every group in order, it writes the group's values into
  the query URL with a chain of `String.replace` calls. It then fetches the URL, walks the
  JSON response, and dispatches one collectd value per (element, entry) pair. After the
  loop it moves the window start `ts` to the clock minus 60 seconds.

The project has five modules:

- `JavaLang` holds the pieces of the Java platform the plugin relies on: `long`/`int`
  ranges, nullable strings, `String.valueOf`, `Long.parseLong`, a character-level
  `String.replace`, ASCII `equalsIgnoreCase` and `Double.intValue`.
- `UrlTemplate` holds the constant query URL, cut into literals and `{{name}}`
  placeholders. It includes a bridge lemma showing that `String.replace` on the rendered
  text is hole filling on the segments.
- `PluginConfig` holds the configuration walk and what it means.
- `MetricsResponse` holds the decoded response and the dispatches made for it.
- `PollCycle` holds the name joining and `read`. `Read` gives what a cycle leaves
  behind: whether it returns or throws, the new window start, the groups it sends a
  request for, and the dispatches it makes. It starts from what `config` left in the
  `instance` and `builder` fields (`Fields`). `ReadRequests` gives the URL of each of those
  requests, under one of two builders:
  - `AsWritten`: the shared `baseUrl` string that the code reassigns across groups;
  - `PerGroup`: every group's URL is built afresh from the endpoint URL.

The clock readings, the per-group request outcomes (a URL that `new HttpGet` rejects, an
IOException, or a parsed body) and the parsed responses are parameters. The collectd dispatch sink is the returned trace of
dispatches.

## Model

| member | source | states |
|---|---|---|
| PluginConfig.ConfigStatus | src/main/java/com/srotya/collectd/ambari/AmbariMetrics.java:141-182 | `config` returns only 0 or -1. It returns 0 exactly when no item throws (`hostname` and `port` items have a first value, the port value is a number, every `appid` has a value) and the last `hostname` value is a string, so the hostname is not null. Only on success does `ts` move to the clock minus 60000. With no `hostname` item, the host stays `localhost`. `builder` is assigned exactly when no item throws. |
| PluginConfig.ConfigSettings | src/main/java/com/srotya/collectd/ambari/AmbariMetrics.java:143-170 | After a walk without exception, the host and port come from the last `hostname` and `port` items' first values (the port as `intValue()` of the number), or default to `localhost` and 6188. The groups held before are followed by one group per `app` block, in order. |
| PluginConfig.ConfigKeepsEarlierGroups | src/main/java/com/srotya/collectd/ambari/AmbariMetrics.java:144-176 | When item `f` is the first to throw, `config` returns -1, leaves `ts` unchanged and does not assign `builder`. The groups of the `app` blocks before `f` stay appended. |
| PluginConfig.ConfigIgnoresKeyCase | src/main/java/com/srotya/collectd/ambari/AmbariMetrics.java:145-162 | Changing the letter case of any key, at the top level or inside an `app` block, changes nothing `config` produces. |
| PluginConfig.ConfigIgnoresUnknownKeys | src/main/java/com/srotya/collectd/ambari/AmbariMetrics.java:144-170 | An item whose key is none of `hostname`, `port`, `app` is ignored, wherever it stands. |
| PluginConfig.BuildAppMeaning | src/main/java/com/srotya/collectd/ambari/AmbariMetrics.java:151-168 | An `app` block throws exactly when one of its `appid` items has no value. Otherwise it yields the id of the last `appid` item (null if there is none or the value is not a string), plus every `hostnames` value and every `metricnames` value, in order. |
| PluginConfig.WalkGroups | src/main/java/com/srotya/collectd/ambari/AmbariMetrics.java:144-170 | The item loop stops exactly when some item throws. Otherwise it appends one group per `app` block to the groups held before. |
| PluginConfig.WalkHostname | src/main/java/com/srotya/collectd/ambari/AmbariMetrics.java:143-147 | After a walk without exception, the host is the last `hostname` item's first value read with `getString()`, or `localhost` when there is no such item. |
| PluginConfig.WalkPort | src/main/java/com/srotya/collectd/ambari/AmbariMetrics.java:148-150 | After a walk without exception, the port is `intValue()` of the last `port` item's first value, or 6188 when there is no such item. |
| PluginConfig.FailingItemKeepsGroups | src/main/java/com/srotya/collectd/ambari/AmbariMetrics.java:145-169 | An item that throws stops the walk and adds no group. |
| PluginConfig.WalkAfterFailure | src/main/java/com/srotya/collectd/ambari/AmbariMetrics.java:142-176 | Once an item has thrown, the later items change nothing. |
| PluginConfig.WindowStart | src/main/java/com/srotya/collectd/ambari/AmbariMetrics.java:180 | The window start is the clock minus 60000 whenever that difference fits in a `long`. |
| JavaLang.DoubleIntValue | src/main/java/com/srotya/collectd/ambari/AmbariMetrics.java:149 | `getNumber().intValue()` truncates toward zero and saturates at the `int` bounds. |
| JavaLang.LongSub | src/main/java/com/srotya/collectd/ambari/AmbariMetrics.java:180 | `long` subtraction is exact when the difference fits, and otherwise is congruent to it modulo 2^64. |
| JavaLang.LongStr | src/main/java/com/srotya/collectd/ambari/AmbariMetrics.java:69 | `String.valueOf` of a number is a non-empty string of digits, with a leading `-` exactly for a negative number. |
| JavaLang.ParseLong | src/main/java/com/srotya/collectd/ambari/AmbariMetrics.java:106 | `Long.parseLong` accepts only an optional sign followed by decimal digits. The sign decides the sign of the value. |
| JavaLang.ParseLongInvertsLongStr | src/main/java/com/srotya/collectd/ambari/AmbariMetrics.java:106 | The models of `Long.parseLong` and `String.valueOf(long)` are inverse: parsing the printed text of any `long` gives that `long` back. |
| JavaLang.ReplaceAbsent | src/main/java/com/srotya/collectd/ambari/AmbariMetrics.java:73 | `String.replace` leaves a string without an occurrence of the target unchanged. |
| UrlTemplate.ReplaceIsSubst | src/main/java/com/srotya/collectd/ambari/AmbariMetrics.java:68-87 | On a well-formed template, `String.replace` of `{{n}}` is exactly filling every hole named `n`. |
| UrlTemplate.TemplateWellFormed | src/main/java/com/srotya/collectd/ambari/AmbariMetrics.java:48 | The URL constant's literal text has no `{`, and its placeholder names have no braces. |
| UrlTemplate.ResolveIsBuildQuery | src/main/java/com/srotya/collectd/ambari/AmbariMetrics.java:68-87 | Filling the seven placeholders in the order `read` fills them gives the URL built directly from the query's values. |
| UrlTemplate.ReplaceEndpoint | src/main/java/com/srotya/collectd/ambari/AmbariMetrics.java:68-69 | The two endpoint `replace` calls fill the host and port holes and keep the template well formed. |
| UrlTemplate.ReplaceAppId | src/main/java/com/srotya/collectd/ambari/AmbariMetrics.java:73 | The `{{appId}}` replace fills the application id hole. |
| UrlTemplate.ReplaceAppIdAgain | src/main/java/com/srotya/collectd/ambari/AmbariMetrics.java:73 | Once an id has been written in, a later `{{appId}}` replace with any other id changes nothing. |
| UrlTemplate.ReplaceGroupFields | src/main/java/com/srotya/collectd/ambari/AmbariMetrics.java:80-87 | The four field `replace` calls applied after the id give the fully built URL of the query. |
| UrlTemplate.BuildQueryBraceFree | src/main/java/com/srotya/collectd/ambari/AmbariMetrics.java:48 | A URL built from values without `{` has no placeholder left. |
| UrlTemplate.AppIdShowsInUrl | src/main/java/com/srotya/collectd/ambari/AmbariMetrics.java:48 | Two queries that differ only in an application id of another length have different URLs. |
| MetricsResponse.EntriesShape | src/main/java/com/srotya/collectd/ambari/AmbariMetrics.java:104-108 | The entry loop fails exactly when some entry's key is not a `long` or its value is not a number. Otherwise it makes one dispatch per entry, in order, with the parsed key as time, the value, type `records` and the metric name as type instance. |
| MetricsResponse.DispatchShape | src/main/java/com/srotya/collectd/ambari/AmbariMetrics.java:95-108 | The response walk throws exactly when some element lacks a string `hostname`, a string `metricname` or a `metrics` object, or has a bad entry. Otherwise entry `j` of element `i` is dispatch number `Offset(i) + j`: one dispatch per (element, entry) pair, in array-then-entry order, and nothing else. |
| MetricsResponse.DispatchFails | src/main/java/com/srotya/collectd/ambari/AmbariMetrics.java:96-108 | The element loop throws exactly when some element cannot be walked. |
| MetricsResponse.DispatchLength | src/main/java/com/srotya/collectd/ambari/AmbariMetrics.java:96-108 | A walk without exception makes as many dispatches as there are entries in all elements. |
| MetricsResponse.DispatchAt | src/main/java/com/srotya/collectd/ambari/AmbariMetrics.java:96-108 | In a walk without exception, entry `j` of element `i` is dispatch number `Offset(i) + j`. |
| MetricsResponse.DispatchRest | src/main/java/com/srotya/collectd/ambari/AmbariMetrics.java:96-108 | A walk without exception makes the first element's dispatches, one per entry, and then those of the remaining elements. |
| MetricsResponse.DispatchFirst | src/main/java/com/srotya/collectd/ambari/AmbariMetrics.java:104-108 | In a walk without exception, entry `j` of the first element is dispatch number `j`. |
| MetricsResponse.OffsetBound | src/main/java/com/srotya/collectd/ambari/AmbariMetrics.java:96-108 | Each element's entries lie inside the range of all entries. |
| MetricsResponse.EmptyNestedObject | src/main/java/com/srotya/collectd/ambari/AmbariMetrics.java:103-108 | Elements that each have a hostname, a metric name and an empty nested `metrics` object (any hostnames and names) yield no dispatch and no error. |
| MetricsResponse.EmptyElementAddsNothing | src/main/java/com/srotya/collectd/ambari/AmbariMetrics.java:96-108 | An element with an empty nested `metrics` object, put anywhere among other elements, changes neither the dispatches nor whether the walk throws. |
| PollCycle.ToURLList | src/main/java/com/srotya/collectd/ambari/AmbariMetrics.java:120-138 | The `StringBuilder` loop of `toURLHostnames`/`toURLMetricnames` writes the names in list order, separated by `,`, with a null name written as `null`. |
| PollCycle.JoinSnoc | src/main/java/com/srotya/collectd/ambari/AmbariMetrics.java:123-126 | Appending a name adds `,` and that name to the end of the joined text. |
| PollCycle.SplitJoin | src/main/java/com/srotya/collectd/ambari/AmbariMetrics.java:120-138 | When no name contains `,`, cutting the joined text at the commas gives back the names. |
| PollCycle.JoinAvoids | src/main/java/com/srotya/collectd/ambari/AmbariMetrics.java:120-138 | The joined text contains a character other than `,` only if some name contains it. |
| PollCycle.StepShape | src/main/java/com/srotya/collectd/ambari/AmbariMetrics.java:70-113 | One loop iteration keeps running exactly when the group is fine: it has an id, and it is skipped, or its URL is a URI, `builder` is set, and its fetch failed with an IOException or its response can be walked. A fine group appends its dispatches, and records its number exactly when it issues a request. A group that throws has recorded its number only when its request was sent (a URI and a set `builder`), and has appended, with `builder` set, what the walk of its response dispatched before the throw. |
| PollCycle.UnsentGroupEndsLoop | src/main/java/com/srotya/collectd/ambari/AmbariMetrics.java:89-90 | A group with an id, hosts and metrics whose URL is not a URI, or which finds `builder` null, ends the loop with no request sent and nothing dispatched for it. |
| PollCycle.RunMeaning | src/main/java/com/srotya/collectd/ambari/AmbariMetrics.java:70-115 | The group loop runs to the end exactly when every group is fine (an id; and, with hosts and metrics, a URI, a set `builder` and a walkable or failed fetch). It then holds every group's dispatches in order, and a request for every group with an id, hosts and metrics, in order. A loop that stops early has made a prefix of those requests and a prefix of those dispatches. |
| PollCycle.RunIssuedOk | src/main/java/com/srotya/collectd/ambari/AmbariMetrics.java:70-89 | A request is issued only for a group with an id, hosts and metrics, and only when every earlier group let the loop pass: each has an id and, when it has hosts and metrics, a URI, a set `builder` and a fetch that failed or could be walked. |
| PollCycle.ReadMeaning | src/main/java/com/srotya/collectd/ambari/AmbariMetrics.java:66-118 | `read` completes exactly when `config` has run (so `instance` is not null), the collector hostname is not null and every group is fine, where a group with hosts and metrics also needs a URI and a set `builder`. Only then does `ts` become the clock minus 60000. The requests go, in order, to a prefix of the groups with an id, hosts and metrics, and to all of them when the cycle completes. The dispatches are a prefix of all groups' samples in group order, and all of them when the cycle completes. |
| PollCycle.RunStopsAt | src/main/java/com/srotya/collectd/ambari/AmbariMetrics.java:70-113 | When group `k` is the first to throw, the loop stops there. It has dispatched every sample of the groups before `k`, plus what group `k`'s response walk dispatched before the throw, and sent the requests of the earlier groups with an id, hosts and metrics, plus group `k`'s when it was sent. |
| PollCycle.ReadStopsAt | src/main/java/com/srotya/collectd/ambari/AmbariMetrics.java:66-118 | When group `k` is the first to throw, `read` throws with `ts` unchanged, and what was dispatched before the throw stays dispatched: every sample of the groups before `k`, in order, and with `builder` set the part of group `k`'s response walked before the throw. The requests sent are those of the earlier groups with an id, hosts and metrics, and group `k`'s when it got past lines 89-90. With a null `instance` or hostname nothing is sent or dispatched. |
| PollCycle.ReadRequests | src/main/java/com/srotya/collectd/ambari/AmbariMetrics.java:66-89 | With either builder, the requests are exactly those of the groups the cycle issued, in order. |
| PollCycle.RunWithoutClient | src/main/java/com/srotya/collectd/ambari/AmbariMetrics.java:89-91 | With `builder` null, the loop sends no request and dispatches nothing. |
| PollCycle.ReadWithoutClient | src/main/java/com/srotya/collectd/ambari/AmbariMetrics.java:66-118 | With `builder` null, `read` sends no request and dispatches nothing. It completes exactly when the hostname is set, every group has an id and no group has both hosts and metrics. |
| PollCycle.FailedConfigSendsNothing | src/main/java/com/srotya/collectd/ambari/AmbariMetrics.java:141-176 | After a first `config` whose item loop throws, `builder` stays null: a later `read` sends no request, dispatches nothing, and completes only when no group has both hosts and metrics. |
| PollCycle.SkippedGroupIsInert | src/main/java/com/srotya/collectd/ambari/AmbariMetrics.java:74-79 | A group with an id but no hosts or no metrics issues nothing, dispatches nothing and is not an error. |
| PollCycle.FetchErrorIsIsolated | src/main/java/com/srotya/collectd/ambari/AmbariMetrics.java:91-113 | An IOException on a group's request is caught. The loop goes on, and nothing is dispatched for that group. |
| PollCycle.FirstProcessed | src/main/java/com/srotya/collectd/ambari/AmbariMetrics.java:74-79 | Gives the first group with hosts and metrics from a position on, or says there is none. |
| PollCycle.FillResolved | src/main/java/com/srotya/collectd/ambari/AmbariMetrics.java:73-87 | A group's `replace` calls leave a URL without `{` unchanged. |
| PollCycle.SharedBeforeFirst | src/main/java/com/srotya/collectd/ambari/AmbariMetrics.java:70-79 | Before the first group with hosts and metrics, the shared string holds the endpoint with group 0's id, whatever ids the skipped groups carry. |
| PollCycle.SharedAtFirst | src/main/java/com/srotya/collectd/ambari/AmbariMetrics.java:70-89 | Right after the first group with hosts and metrics, the shared string is the URL resolved for that group under group 0's id. |
| PollCycle.SharedAfterFirst | src/main/java/com/srotya/collectd/ambari/AmbariMetrics.java:70-89 | After the first group with hosts and metrics, the shared string stays the URL resolved for that group. |
| PollCycle.FieldsResolve | src/main/java/com/srotya/collectd/ambari/AmbariMetrics.java:80-87 | On the endpoint-and-id URL, a group's field replaces give the URL built directly from that group's values. |
| PollCycle.UrlStages | src/main/java/com/srotya/collectd/ambari/AmbariMetrics.java:68-87 | The string's stages: the endpoint URL, then with group 0's id (which later ids cannot change), then fully resolved for the first group with hosts and metrics. |
| PollCycle.RequestsAsWritten | src/main/java/com/srotya/collectd/ambari/AmbariMetrics.java:70-89 | With the shared string, every issued request carries the same resolved URL. |
| PollCycle.IssuedAsWritten | src/main/java/com/srotya/collectd/ambari/AmbariMetrics.java:70-89 | With the shared string, requests issued for a leading part of the groups with an id, hosts and metrics all go to the first processed group's URL under group 0's id, the first of them for that group. |
| PollCycle.FirstIssued | src/main/java/com/srotya/collectd/ambari/AmbariMetrics.java:70-89 | The first issued request belongs to the first group with hosts and metrics, and group 0 has an id. |
| PollCycle.RequestingFromFirst | src/main/java/com/srotya/collectd/ambari/AmbariMetrics.java:74-79 | The first group that would request is the first one with hosts and metrics. |
| PollCycle.ReadReusesFirstUrl | src/main/java/com/srotya/collectd/ambari/AmbariMetrics.java:66-89 | As written, when any request is made, every request of the cycle goes to one URL. That URL carries group 0's application id and the first processed group's names and end time, and it has no placeholder left. |
| PollCycle.GroupUrlPerGroup | src/main/java/com/srotya/collectd/ambari/AmbariMetrics.java:68-89 | Built afresh from the endpoint URL, a group's URL is the one built directly from its own id, names and end time. |
| PollCycle.ReadCorrectedUsesOwnGroup | src/main/java/com/srotya/collectd/ambari/AmbariMetrics.java:66-89 | With per-group building, every request carries its own group's id, names and end time. |
| PollCycle.FirstRequestAgrees | src/main/java/com/srotya/collectd/ambari/AmbariMetrics.java:66-89 | For the same per-group outcomes, the two builders make requests for the same groups in the same order. Their first URLs agree when the first processed group has group 0's id. |
| PollCycle.SecondGroupGetsFirstId | src/main/java/com/srotya/collectd/ambari/AmbariMetrics.java:70-89 | For two processed groups whose ids have different lengths, the code sends the second request to the first request's URL. The per-group URL differs from it. |

## Left out

- The HTTP client, the executed request and reading the body: the outcome of each
  group's request is a parameter. It is a URL that `new HttpGet` rejects (`BadUri`), an
  IOException, or the body as Gson parses it.
- Which URLs `URI.create` rejects (a space, a `%` not followed by two hex digits, and so
  on) is not computed from the URL. The outcome parameter says it for each group.
- Gson and the JSON text: a response is the decoded tree. A field is None wherever
  reading it the way `read` does would throw. A JSON number is kept as its numeral,
  because the plugin does no arithmetic on it.
- The collectd API (`Collectd.dispatchValues`, `registerConfig`/`registerRead`/`registerShutdown`,
  logging): dispatches are returned as a trace, and log calls have no modelled effect.
- `System.currentTimeMillis()`: each clock read is a parameter (`ends[i]` per group,
  `now` after the loop or after `config`).
- `shutdown`, `toString`, the getters and setters: they do nothing the model needs.
- The `builder` field is kept only as whether it is set (`Fields`); `builder.build()` and
  the client it makes are part of the fetch outcome.
- `equalsIgnoreCase` folds ASCII letters only. Java's Unicode case folding is not
  modelled.
- `Long.parseLong` accepts ASCII digits only. Java also accepts other Unicode decimal
  digits.
- A configured `port` number is a real. NaN and the infinities of `Double` are not
  modelled.
- The URL constant is given as its segment form `UrlTemplate.Template`, whose text is
  `Render(Template)`. No lemma compares it character by character with the Java literal.
- PollCycle.ReadReusesFirstUrl: assumes, like every URL lemma, that the configured host,
  ids and names contain no `{`. If one does, `String.replace` could meet placeholder text
  inside a value, and the model makes no claim about such URLs.
- PollCycle.ReadCorrectedUsesOwnGroup: has the same no-`{` assumption.
- PollCycle.FirstRequestAgrees: has the same no-`{` assumption. It also judges both
  builders against one vector of per-group outcomes. In the code, whether `new HttpGet`
  accepts a URL depends on that URL, and the builders make different URLs: with a second
  group whose metric name holds a space, the shared string sends that group's request to
  the first group's URL, while the URL built afresh would be rejected. The model does not
  compute URI validity from the URL, so it makes no claim comparing the builders when
  their URLs differ in validity.
- PollCycle.SecondGroupGetsFirstId: has the same no-`{` assumption.
- PollCycle.GroupUrlPerGroup: has the same no-`{` assumption.
- The request URLs are computed by `ReadRequests` from the numbers of the groups `Read`
  issued, not inside the loop. This gives the same URLs, because the `baseUrl` string
  depends only on the groups and never on a fetch outcome.
- The model keeps these behaviours of the code as they are:
  - a configuration without `hostname` succeeds with `localhost`;
  - an empty hostname is accepted, since only null is rejected;
  - host and metric names are kept as lists, so duplicates are kept;
  - the catch at line 110 handles only IOException. A response that cannot be walked, a
    timestamp key that is not a `long`, or a value that `getAsNumber()` rejects throws an
    unchecked exception out of `read`, which ends the cycle with `ts` unchanged. The
    rejected values are a boolean, null, an object, and an array unless it holds exactly
    one element that `getAsNumber()` accepts. A JSON string is accepted;
  - a null application id throws out of `read` at its `replace` call;
  - `read` is registered in the constructor, so it also runs when `config` never ran
    (null `instance`, which throws at line 68) or threw (null `builder`, which throws at
    line 90 for the first group with an id, hosts and metrics).

## Findings

| source | as written | input that shows it | evidently intended | confidence | as-written member | corrected member |
|---|---|---|---|---|---|---|
| src/main/java/com/srotya/collectd/ambari/AmbariMetrics.java:73-89 | Each group's `replace` calls reassign the one `baseUrl` string. After the first group with hosts and metrics, no placeholder is left, so every later request goes to that first URL: group 0's id, the first group's names, and its end time. | Two groups `AppGroup(Some(a0), hosts, metrics)` and `AppGroup(Some(a1), hosts, metrics)` with `\|a0\| != \|a1\|`, both fetches failing: the second request's URL equals the first one's, not the URL for `a1`. | Every group's URL is built afresh from the endpoint URL with its own id, names and times. | not executed | PollCycle.SecondGroupGetsFirstId | PollCycle.ReadCorrectedUsesOwnGroup |

=== FILE: java_lang.dfy ===
/** The few pieces of the Java platform the collector relies on, stated over Dafny's
    unbounded integers and `seq<char>` strings: the `long`/`int` ranges, nullable strings,
    `String.valueOf(long)`, `Long.parseLong`, `String.replace`, `String.equalsIgnoreCase`
    and `Number.intValue()` of a `Double`. */
module JavaLang {

  datatype Option<+T> = None | Some(value: T)

  /** Java `long` */
  type Long = x: int | -0x8000_0000_0000_0000 <= x <= 0x7FFF_FFFF_FFFF_FFFF

  /** Java `int` */
  type Int32 = x: int | -0x8000_0000 <= x <= 0x7FFF_FFFF

  /** A Java `String` reference, which may be null. */
  type JString = Option<string>

  /** What `StringBuilder.append(String)` and `"," + s` write for a possibly-null string. */
  function Text(s: JString): string
  {
    match s
    case None => "null"
    case Some(t) => t
  }

  /** Two's-complement wrap-around of `long` subtraction. */
  function LongSub(a: Long, b: Long): (r: Long)
    ensures -0x8000_0000_0000_0000 <= a - b <= 0x7FFF_FFFF_FFFF_FFFF ==> r == a - b
    ensures (r - (a - b)) % 0x1_0000_0000_0000_0000 == 0
  {
    var d := a - b;
    if d < -0x8000_0000_0000_0000 then d + 0x1_0000_0000_0000_0000
    else if d > 0x7FFF_FFFF_FFFF_FFFF then d - 0x1_0000_0000_0000_0000
    else d
  }

  // ---------------------------------------------------------------------------
  // Decimal text

  predicate IsDigit(c: char)
  {
    '0' <= c <= '9'
  }

  predicate AllDigits(s: string)
  {
    forall i :: 0 <= i < |s| ==> IsDigit(s[i])
  }

  function DigitChar(d: int): char
    requires 0 <= d < 10
  {
    ('0' as int + d) as char
  }

  /** The decimal digits of `n`, most significant first, without leading zeros. */
  function NatDigits(n: nat): (r: string)
    ensures |r| > 0
    ensures AllDigits(r)
    ensures n > 0 ==> r[0] != '0'
    decreases n
  {
    if n < 10 then [DigitChar(n)] else NatDigits(n / 10) + [DigitChar(n % 10)]
  }

  /** The value of a string of decimal digits. */
  function DigitsValue(s: string): nat
    requires AllDigits(s)
    decreases |s|
  {
    if |s| == 0 then 0 else DigitsValue(s[..|s| - 1]) * 10 + (s[|s| - 1] as int - '0' as int)
  }

  /** `String.valueOf(long)` (and `String.valueOf(int)`, which prints the same way). */
  function LongStr(x: int): (r: string)
    ensures |r| > 0
    ensures forall i :: 0 <= i < |r| ==> IsDigit(r[i]) || (i == 0 && r[i] == '-')
    ensures x < 0 <==> r[0] == '-'
  {
    if x < 0 then "-" + NatDigits(-x) else NatDigits(x)
  }

  /** `Long.parseLong(String)`: an optional `-` or `+` followed by at least one decimal
      digit, whose value fits a `long`; anything else throws NumberFormatException (None).
      Only ASCII digits are modelled. */
  function ParseLong(s: string): (r: Option<Long>)
    ensures r.Some? ==> |s| > 0
    ensures r.Some? ==> (IsDigit(s[0]) || ((s[0] == '-' || s[0] == '+') && |s| > 1))
    ensures r.Some? ==> forall i :: 0 < i < |s| ==> IsDigit(s[i])
    ensures r.Some? && s[0] == '-' ==> r.value <= 0
    ensures r.Some? && s[0] != '-' ==> r.value >= 0
  {
    if |s| == 0 then None
    else
      var negative := s[0] == '-';
      var digits := if s[0] == '-' || s[0] == '+' then s[1..] else s;
      if |digits| == 0 || !AllDigits(digits) then None
      else
        var v: int := if negative then -(DigitsValue(digits) as int) else DigitsValue(digits);
        if -0x8000_0000_0000_0000 <= v <= 0x7FFF_FFFF_FFFF_FFFF then Some(v) else None
  }

  lemma {:induction false} DigitsRoundTrip(n: nat)
    ensures DigitsValue(NatDigits(n)) == n
    decreases n
  {
    var r := NatDigits(n);
    if n >= 10 {
      DigitsRoundTrip(n / 10);
      assert r[..|r| - 1] == NatDigits(n / 10);
    }
  }

  /** `Long.parseLong` reads back every `long` that `String.valueOf` printed. */
  lemma ParseLongInvertsLongStr(x: Long)
    ensures ParseLong(LongStr(x)) == Some(x)
  {
    var s := LongStr(x);
    if x < 0 {
      var d := NatDigits(-(x as int));
      DigitsRoundTrip(-(x as int));
      assert s == "-" + d && s[1..] == d;
      assert AllDigits(d) && |d| > 0;
    } else {
      var d := NatDigits(x);
      DigitsRoundTrip(x);
      assert s == d && AllDigits(d) && IsDigit(d[0]);
    }
  }

  // ---------------------------------------------------------------------------
  // String.replace

  /** `p` occurs in `s` starting at index `i`. */
  predicate MatchAt(s: string, p: string, i: int)
    requires 0 <= i <= |s|
  {
    p <= s[i..]
  }

  predicate Occurs(s: string, p: string)
  {
    exists i :: 0 <= i <= |s| && MatchAt(s, p, i)
  }

  /** `String.replace(CharSequence target, CharSequence replacement)`: scanning left to right,
      every non-overlapping occurrence of `target` is replaced; the inserted text is not
      scanned again. */
  function Replace(s: string, target: string, replacement: string): string
    requires |target| > 0
    decreases |s|
  {
    if |s| == 0 then ""
    else if target <= s then replacement + Replace(s[|target|..], target, replacement)
    else [s[0]] + Replace(s[1..], target, replacement)
  }

  /** Where `target` does not occur, `Replace` changes nothing. */
  lemma {:induction false} ReplaceAbsent(s: string, target: string, replacement: string)
    requires |target| > 0 && !Occurs(s, target)
    ensures Replace(s, target, replacement) == s
    decreases |s|
  {
    if |s| > 0 {
      assert !MatchAt(s, target, 0);
      assert !Occurs(s[1..], target) by {
        forall i | 0 <= i <= |s[1..]| ensures !MatchAt(s[1..], target, i) {
          assert s[1..][i..] == s[i + 1..];
          assert !MatchAt(s, target, i + 1);
        }
      }
      ReplaceAbsent(s[1..], target, replacement);
      assert [s[0]] + s[1..] == s;
    }
  }

  /** A prefix `x` in which `target` starts nowhere passes through `Replace` unchanged. */
  lemma {:induction false} ReplaceSkipsPrefix(x: string, rest: string, target: string, replacement: string)
    requires |target| > 0
    requires forall i :: 0 <= i < |x| ==> !MatchAt(x + rest, target, i)
    ensures Replace(x + rest, target, replacement) == x + Replace(rest, target, replacement)
    decreases |x|
  {
    if |x| > 0 {
      var s := x + rest;
      var t := x[1..];
      assert !MatchAt(s, target, 0);
      assert s[1..] == t + rest;
      forall i | 0 <= i < |t|
        ensures !MatchAt(t + rest, target, i)
      {
        assert (t + rest)[i..] == s[i + 1..];
        assert !MatchAt(s, target, i + 1);
      }
      ReplaceSkipsPrefix(t, rest, target, replacement);
      var r := Replace(rest, target, replacement);
      assert Replace(s, target, replacement) == [x[0]] + (t + r);
      assert [x[0]] + t == x;
      ConcatAssoc([x[0]], t, r);
    } else {
      assert x + rest == rest;
    }
  }

  lemma ConcatAssoc<T>(a: seq<T>, b: seq<T>, c: seq<T>)
    ensures a + (b + c) == (a + b) + c
  {
  }

  /** A string without `{` contains no text that starts with `{`. */
  lemma NoOccurrenceWithoutFirstChar(s: string, p: string)
    requires |p| > 0
    requires p[0] !in s
    ensures !Occurs(s, p)
  {
    forall i | 0 <= i <= |s|
      ensures !MatchAt(s, p, i)
    {
      if i < |s| {
        assert s[i] in s;
      }
    }
  }

  // ---------------------------------------------------------------------------
  // equalsIgnoreCase, intValue

  /** Case folding, restricted to ASCII letters. */
  function LowerAscii(c: char): char
  {
    if 'A' <= c <= 'Z' then (c as int + 32) as char else c
  }

  /** `String.equalsIgnoreCase` for ASCII text. */
  predicate EqualsIgnoreCase(a: string, b: string)
  {
    |a| == |b| && forall i :: 0 <= i < |a| ==> LowerAscii(a[i]) == LowerAscii(b[i])
  }

  /** Truncation of a real toward zero, as Java's `(int)` and `(long)` casts do. */
  function TruncateTowardZero(x: real): int
  {
    if x >= 0.0 then x.Floor else -((-x).Floor)
  }

  /** `Double.intValue()`: truncation toward zero, saturating at the `int` bounds. */
  function DoubleIntValue(x: real): (r: Int32)
    ensures x >= 0x7FFF_FFFF as real ==> r == 0x7FFF_FFFF
    ensures x <= -0x8000_0000 as real ==> r == -0x8000_0000
    ensures -0x8000_0000 as real < x < 0x7FFF_FFFF as real ==>
      (if x >= 0.0 then r as real <= x < r as real + 1.0 else r as real - 1.0 < x <= r as real)
  {
    var t := TruncateTowardZero(x);
    if t > 0x7FFF_FFFF then 0x7FFF_FFFF
    else if t < -0x8000_0000 then -0x8000_0000
    else t
  }
}

=== FILE: metrics_response.dfy ===
/** The decoded response of the metrics API and the samples the collector hands to collectd
    for it. The JSON text and its parser are not modelled: a response is the tree the parser
    yields, with None wherever reading a field the way the collector reads it would throw. */
module MetricsResponse {
  import opened JavaLang

  /** A JSON number, kept as its numeral: the collector passes it on without arithmetic. */
  datatype Number = Number(numeral: string)

  /** One `"<timestamp>": <value>` pair of a nested `metrics` object; `value` is None when
      `getAsNumber()` throws on it. */
  datatype Entry = Entry(key: string, value: Option<Number>)

  /** One element of the `metrics` array. A field is None when it is missing or of a kind
      that `getAsString()` / `getAsJsonObject()` rejects (and all three are None for an
      element that is not an object). */
  datatype Element = Element(hostname: Option<string>, metricname: Option<string>, metrics: Option<seq<Entry>>)

  /** The parsed body; None when it is not a JSON object with a `metrics` array. */
  datatype Response = Response(metrics: Option<seq<Element>>)

  /** One `Collectd.dispatchValues` call: plugin, host, type, type instance, time, values. */
  datatype Dispatch = Dispatch(plugin: string, host: string, typeName: string, typeInstance: string,
                               time: Long, values: seq<Number>)

  const RecordsType := "records"

  /** The dispatches made for one response, and whether an unchecked exception ended the
      walk over it. */
  datatype Emitted = Emitted(trace: seq<Dispatch>, failed: bool)

  function DispatchEntries(plugin: string, host: string, metric: string, entries: seq<Entry>): Emitted
    decreases |entries|
  {
    if |entries| == 0 then Emitted([], false)
    else
      var e := entries[0];
      match (e.value, ParseLong(e.key))
      case (None, _) => Emitted([], true)
      case (_, None) => Emitted([], true)
      case (Some(v), Some(t)) =>
        var rest := DispatchEntries(plugin, host, metric, entries[1..]);
        Emitted([Dispatch(plugin, host, RecordsType, metric, t, [v])] + rest.trace, rest.failed)
  }

  function DispatchElement(plugin: string, el: Element): Emitted
  {
    if el.hostname.None? || el.metricname.None? || el.metrics.None? then Emitted([], true)
    else DispatchEntries(plugin, el.hostname.value, el.metricname.value, el.metrics.value)
  }

  function DispatchElements(plugin: string, els: seq<Element>): Emitted
    decreases |els|
  {
    if |els| == 0 then Emitted([], false)
    else
      var first := DispatchElement(plugin, els[0]);
      if first.failed then first
      else
        var rest := DispatchElements(plugin, els[1..]);
        Emitted(first.trace + rest.trace, rest.failed)
  }

  /** The body of the collector's `try` block after the fetch: every element of `metrics`,
      every entry of its nested object, one dispatch each. */
  function DispatchResponse(plugin: string, r: Response): Emitted
  {
    match r.metrics
    case None => Emitted([], true)
    case Some(els) => DispatchElements(plugin, els)
  }

  // ---------------------------------------------------------------------------
  // The shape of the trace

  predicate EntryOk(e: Entry)
  {
    e.value.Some? && ParseLong(e.key).Some?
  }

  predicate ElementOk(el: Element)
  {
    && el.hostname.Some? && el.metricname.Some? && el.metrics.Some?
    && forall j :: 0 <= j < |el.metrics.value| ==> EntryOk(el.metrics.value[j])
  }

  /** The response can be walked without an unchecked exception. */
  predicate WellShaped(els: seq<Element>)
  {
    forall i :: 0 <= i < |els| ==> ElementOk(els[i])
  }

  function EntryCount(el: Element): nat
  {
    if el.metrics.Some? then |el.metrics.value| else 0
  }

  /** The number of entries in the elements before element `i`. */
  function Offset(els: seq<Element>, i: nat): nat
    requires i <= |els|
  {
    if i == 0 then 0 else EntryCount(els[0]) + Offset(els[1..], i - 1)
  }

  /** The dispatch for entry `j` of element `el`. */
  function Record(plugin: string, el: Element, j: nat): Dispatch
    requires ElementOk(el) && j < |el.metrics.value|
  {
    var e := el.metrics.value[j];
    Dispatch(plugin, el.hostname.value, RecordsType, el.metricname.value, ParseLong(e.key).value, [e.value.value])
  }

  lemma {:induction false} EntriesShape(plugin: string, host: string, metric: string, entries: seq<Entry>)
    ensures var e := DispatchEntries(plugin, host, metric, entries);
      && (e.failed <==> exists j :: 0 <= j < |entries| && !EntryOk(entries[j]))
      && (!e.failed ==> |e.trace| == |entries|)
      && (!e.failed ==> forall j :: 0 <= j < |entries| ==>
            e.trace[j] == Dispatch(plugin, host, RecordsType, metric,
                                   ParseLong(entries[j].key).value, [entries[j].value.value]))
    decreases |entries|
  {
    if |entries| > 0 {
      EntriesShape(plugin, host, metric, entries[1..]);
      var e := DispatchEntries(plugin, host, metric, entries);
      if EntryOk(entries[0]) {
        assert (exists j :: 0 <= j < |entries| && !EntryOk(entries[j])) <==>
               (exists j :: 0 <= j < |entries[1..]| && !EntryOk(entries[1..][j])) by {
          forall j | 0 < j < |entries| ensures entries[j] == entries[1..][j - 1] {}
        }
      }
    }
  }

  /** The entries of element `i` lie within the entries of all elements. */
  lemma {:induction false} OffsetBound(els: seq<Element>)
    ensures forall i :: 0 <= i < |els| ==> Offset(els, i) + EntryCount(els[i]) <= Offset(els, |els|)
    decreases |els|
  {
    if |els| > 0 {
      OffsetBound(els[1..]);
      forall i | 0 < i < |els| ensures Offset(els, i) + EntryCount(els[i]) <= Offset(els, |els|) {
        assert els[i] == els[1..][i - 1];
      }
    }
  }

  /** The walk over the elements throws exactly when some element cannot be walked. */
  lemma {:induction false} DispatchFails(plugin: string, els: seq<Element>)
    ensures DispatchElements(plugin, els).failed <==> !WellShaped(els)
    decreases |els|
  {
    if |els| > 0 {
      var el := els[0];
      DispatchFails(plugin, els[1..]);
      assert WellShaped(els) <==> ElementOk(el) && WellShaped(els[1..]) by {
        if ElementOk(el) && WellShaped(els[1..]) {
          forall i | 0 < i < |els| ensures ElementOk(els[i]) {
            assert els[i] == els[1..][i - 1];
          }
        }
      }
      if el.hostname.Some? && el.metricname.Some? && el.metrics.Some? {
        EntriesShape(plugin, el.hostname.value, el.metricname.value, el.metrics.value);
      }
    }
  }

  lemma WellShapedTail(els: seq<Element>)
    requires |els| > 0 && WellShaped(els)
    ensures ElementOk(els[0]) && WellShaped(els[1..])
  {
    forall i | 0 <= i < |els[1..]| ensures ElementOk(els[1..][i]) {
      assert els[1..][i] == els[i + 1];
    }
  }

  /** A walk without exception makes one dispatch per entry. */
  lemma {:induction false} DispatchLength(plugin: string, els: seq<Element>)
    requires WellShaped(els)
    ensures |DispatchElements(plugin, els).trace| == Offset(els, |els|)
    decreases |els|
  {
    if |els| > 0 {
      var el := els[0];
      WellShapedTail(els);
      DispatchFails(plugin, els[1..]);
      DispatchLength(plugin, els[1..]);
      EntriesShape(plugin, el.hostname.value, el.metricname.value, el.metrics.value);
    }
  }

  /** A walk without exception is the first element's dispatches followed by the rest's. */
  lemma DispatchRest(plugin: string, els: seq<Element>)
    requires |els| > 0 && !DispatchElements(plugin, els).failed
    ensures !DispatchElements(plugin, els[1..]).failed
    ensures |DispatchElement(plugin, els[0]).trace| == EntryCount(els[0])
    ensures DispatchElements(plugin, els).trace
         == DispatchElement(plugin, els[0]).trace + DispatchElements(plugin, els[1..]).trace
  {
    var el := els[0];
    EntriesShape(plugin, el.hostname.value, el.metricname.value, el.metrics.value);
  }

  /** In a walk without exception, the entry `j` of the first element is dispatch number `j`. */
  lemma DispatchFirst(plugin: string, els: seq<Element>, j: nat)
    requires |els| > 0 && !DispatchElements(plugin, els).failed
    requires ElementOk(els[0]) && j < EntryCount(els[0])
    ensures j < |DispatchElements(plugin, els).trace|
    ensures DispatchElements(plugin, els).trace[j] == Record(plugin, els[0], j)
  {
    var el := els[0];
    DispatchRest(plugin, els);
    EntriesShape(plugin, el.hostname.value, el.metricname.value, el.metrics.value);
    assert DispatchElement(plugin, el).trace[j] == Record(plugin, el, j);
  }

  /** In a walk without exception, the entry `j` of element `i` is dispatch number
      `Offset(els, i) + j`. */
  lemma {:induction false} DispatchAt(plugin: string, els: seq<Element>, i: nat, j: nat)
    requires !DispatchElements(plugin, els).failed
    requires i < |els| && ElementOk(els[i]) && j < EntryCount(els[i])
    ensures Offset(els, i) + j < |DispatchElements(plugin, els).trace|
    ensures DispatchElements(plugin, els).trace[Offset(els, i) + j] == Record(plugin, els[i], j)
    decreases |els|
  {
    if i > 0 {
      DispatchRest(plugin, els);
      assert els[i] == els[1..][i - 1];
      DispatchAt(plugin, els[1..], i - 1, j);
    } else {
      DispatchFirst(plugin, els, j);
    }
  }

  /** For a response the collector can walk, the dispatches are exactly one per (element,
      entry) pair, in array-then-entry order: the entry `j` of element `i` is dispatch number
      `Offset(els, i) + j`, with the group's id as plugin, the element's hostname as host,
      type `records`, the metric name as type instance, the parsed key as time and the single
      value. A response that cannot be walked ends in an exception. */
  lemma DispatchShape(plugin: string, els: seq<Element>)
    ensures var e := DispatchElements(plugin, els);
      && (e.failed <==> !WellShaped(els))
      && (!e.failed ==> |e.trace| == Offset(els, |els|))
      && (forall i :: 0 <= i < |els| ==> Offset(els, i) + EntryCount(els[i]) <= Offset(els, |els|))
      && (!e.failed ==> forall i, j :: 0 <= i < |els| && 0 <= j < EntryCount(els[i]) ==>
            e.trace[Offset(els, i) + j] == Record(plugin, els[i], j))
  {
    DispatchFails(plugin, els);
    OffsetBound(els);
    if WellShaped(els) {
      DispatchLength(plugin, els);
      forall i, j | 0 <= i < |els| && 0 <= j < EntryCount(els[i])
        ensures DispatchElements(plugin, els).trace[Offset(els, i) + j] == Record(plugin, els[i], j)
      {
        DispatchAt(plugin, els, i, j);
      }
    }
  }

  /** An element with a hostname and a metric name whose nested object is empty. */
  predicate EmptyElement(el: Element)
  {
    el.hostname.Some? && el.metricname.Some? && el.metrics == Some([])
  }

  /** Elements whose nested objects are all empty yield no dispatch, and no error. */
  lemma EmptyNestedObject(plugin: string, els: seq<Element>)
    requires forall i :: 0 <= i < |els| ==> EmptyElement(els[i])
    ensures DispatchElements(plugin, els) == Emitted([], false)
  {
    DispatchShape(plugin, els);
    assert WellShaped(els);
    var n := |els|;
    assert Offset(els, n) == 0 by {
      OffsetOfEmpties(els, n);
    }
  }

  /** An element whose nested object is empty, put anywhere among other elements, changes
      neither the dispatches nor whether the walk throws. */
  lemma {:induction false} EmptyElementAddsNothing(plugin: string, els: seq<Element>, k: nat, e: Element)
    requires k <= |els| && EmptyElement(e)
    ensures DispatchElements(plugin, els[..k] + [e] + els[k..]) == DispatchElements(plugin, els)
    decreases k
  {
    var s := els[..k] + [e] + els[k..];
    if k == 0 {
      assert s[0] == e && s[1..] == els;
      assert DispatchElement(plugin, e) == Emitted([], false);
    } else {
      var t := els[1..];
      assert s[0] == els[0];
      assert s[1..] == t[..k - 1] + [e] + t[k - 1..];
      EmptyElementAddsNothing(plugin, t, k - 1, e);
    }
  }

  lemma {:induction false} OffsetOfEmpties(els: seq<Element>, i: nat)
    requires i <= |els|
    requires forall k :: 0 <= k < |els| ==> EntryCount(els[k]) == 0
    ensures Offset(els, i) == 0
    decreases i
  {
    if i > 0 {
      OffsetOfEmpties(els[1..], i - 1);
    }
  }
}

=== FILE: plugin_config.dfy ===
/** The configuration side of the collector: the data holders `AmbariInstance` and
    `AppMetrics`, and `config`, which walks collectd's key/value tree into one upstream
    endpoint and an ordered list of application groups. */
module PluginConfig {
  import opened JavaLang

  /** One value of a configuration item: a string, a number (a Java `Double`, of which
      NaN and the infinities are not modelled) or a boolean. */
  datatype ConfigValue = CString(s: string) | CNumber(x: real) | CBoolean(b: bool)

  /** A node of collectd's configuration tree. */
  datatype ConfigItem = ConfigItem(key: string, values: seq<ConfigValue>, children: seq<ConfigItem>)

  /** `getString()` of a value: null unless the value is a string. */
  function GetString(v: ConfigValue): JString
  {
    if v.CString? then Some(v.s) else None
  }

  /** The strings of a value list, in order, null for each value that is not a string. */
  function Strings(vs: seq<ConfigValue>): (r: seq<JString>)
    ensures |r| == |vs|
    ensures forall i :: 0 <= i < |vs| ==> r[i] == GetString(vs[i])
  {
    seq(|vs|, i requires 0 <= i < |vs| => GetString(vs[i]))
  }

  /** `AmbariInstance`: the metrics collector to query. */
  datatype Instance = Instance(hostname: JString, port: Int32)

  const DefaultInstance := Instance(Some("localhost"), 6188)

  /** `AppMetrics`: one application group and the hosts and metrics polled for it. */
  datatype AppGroup = AppGroup(appId: JString, hostnames: seq<JString>, metricNames: seq<JString>)

  const NewGroup := AppGroup(None, [], [])

  /** The fixed backoff of the sliding window, in milliseconds. */
  const Backoff: Long := 60_000

  /** `System.currentTimeMillis() - 60_000` as a `long`. */
  function WindowStart(now: Long): (r: Long)
    ensures now >= -0x8000_0000_0000_0000 + Backoff ==> r == now - Backoff
  {
    LongSub(now, Backoff)
  }

  predicate KeyIs(key: string, name: string)
  {
    EqualsIgnoreCase(key, name)
  }

  // ---------------------------------------------------------------------------
  // The walk, item by item, as the collector performs it

  /** One child of an `app` block; None when `getValues().get(0)` throws. */
  function ApplyAppItem(g: AppGroup, item: ConfigItem): Option<AppGroup>
  {
    if KeyIs(item.key, "appid") && |item.values| == 0 then None
    else
      var g1 := if KeyIs(item.key, "appid") then g.(appId := GetString(item.values[0])) else g;
      var g2 := if KeyIs(item.key, "hostnames") then g1.(hostnames := g1.hostnames + Strings(item.values)) else g1;
      var g3 := if KeyIs(item.key, "metricnames") then g2.(metricNames := g2.metricNames + Strings(item.values)) else g2;
      Some(g3)
  }

  /** The group an `app` block builds, or None when one of its children throws. */
  function BuildApp(children: seq<ConfigItem>): Option<AppGroup>
    decreases |children|
  {
    if |children| == 0 then Some(NewGroup)
    else
      match BuildApp(children[..|children| - 1])
      case None => None
      case Some(g) => ApplyAppItem(g, children[|children| - 1])
  }

  /** The state of `config`'s loop: whether it is still running (no exception so far), the
      instance being filled and the group list being extended. */
  datatype Walk = Walk(ok: bool, instance: Instance, groups: seq<AppGroup>)

  /** One top-level item; `ok` turns false where the collector throws. */
  function ApplyItem(w: Walk, item: ConfigItem): Walk
  {
    if KeyIs(item.key, "hostname") && |item.values| == 0 then w.(ok := false)
    else
      var w1 := if KeyIs(item.key, "hostname")
        then w.(instance := w.instance.(hostname := GetString(item.values[0]))) else w;
      if KeyIs(item.key, "port") && (|item.values| == 0 || !item.values[0].CNumber?) then w1.(ok := false)
      else
        var w2 := if KeyIs(item.key, "port")
          then w1.(instance := w1.instance.(port := DoubleIntValue(item.values[0].x))) else w1;
        if KeyIs(item.key, "app") then
          match BuildApp(item.children)
          case None => w2.(ok := false)
          case Some(g) => w2.(groups := w2.groups + [g])
        else w2
  }

  /** The loop over the top-level items, starting from a fresh instance and the group list
      the plugin already holds. */
  function WalkItems(items: seq<ConfigItem>, groups0: seq<AppGroup>): Walk
    decreases |items|
  {
    if |items| == 0 then Walk(true, DefaultInstance, groups0)
    else
      var w := WalkItems(items[..|items| - 1], groups0);
      if w.ok then ApplyItem(w, items[|items| - 1]) else w
  }

  /** What `config` leaves behind: its return value, the `instance` and `appMetrics`
      fields, the window start `ts`, and whether it reached the assignment of `builder`. */
  datatype ConfigResult = ConfigResult(status: int, instance: Instance, groups: seq<AppGroup>, ts: Long,
                                       built: bool)

  /** `config(OConfigItem)`. `groups0` and `ts0` are the fields before the call, `now` the
      clock read at the end of a successful call. */
  function Config(root: ConfigItem, groups0: seq<AppGroup>, ts0: Long, now: Long): ConfigResult
  {
    var w := WalkItems(root.children, groups0);
    if !w.ok || w.instance.hostname.None? then ConfigResult(-1, w.instance, w.groups, ts0, w.ok)
    else ConfigResult(0, w.instance, w.groups, WindowStart(now), true)
  }

  // ---------------------------------------------------------------------------
  // What the walk means, stated without the loop

  /** The item does not make `config` throw. */
  predicate ItemOk(item: ConfigItem)
  {
    && (KeyIs(item.key, "hostname") ==> |item.values| > 0)
    && (KeyIs(item.key, "port") ==> |item.values| > 0 && item.values[0].CNumber?)
    && (KeyIs(item.key, "app") ==> AppOk(item.children))
  }

  /** No child of an `app` block makes `config` throw. */
  predicate AppOk(children: seq<ConfigItem>)
  {
    forall i :: 0 <= i < |children| ==> (KeyIs(children[i].key, "appid") ==> |children[i].values| > 0)
  }

  predicate AllOk(items: seq<ConfigItem>)
  {
    forall i :: 0 <= i < |items| ==> ItemOk(items[i])
  }

  /** Item `i` is the last one whose key is `name`. */
  predicate LastKeyed(items: seq<ConfigItem>, name: string, i: int)
  {
    && 0 <= i < |items|
    && KeyIs(items[i].key, name)
    && forall j :: i < j < |items| ==> !KeyIs(items[j].key, name)
  }

  predicate NoneKeyed(items: seq<ConfigItem>, name: string)
  {
    forall j :: 0 <= j < |items| ==> !KeyIs(items[j].key, name)
  }

  lemma LastKeyedUnique(items: seq<ConfigItem>, name: string, i: int, j: int)
    requires LastKeyed(items, name, i) && LastKeyed(items, name, j)
    ensures i == j
  {
  }

  /** Where the last item keyed `name` is, if there is one. */
  function LastIndex(items: seq<ConfigItem>, name: string): (r: Option<nat>)
    ensures r.None? <==> NoneKeyed(items, name)
    ensures r.Some? ==> LastKeyed(items, name, r.value)
    decreases |items|
  {
    if |items| == 0 then None
    else if KeyIs(items[|items| - 1].key, name) then Some(|items| - 1)
    else LastIndex(items[..|items| - 1], name)
  }

  /** Every value of every item keyed `name`, in order. */
  function AllValues(items: seq<ConfigItem>, name: string): seq<JString>
  {
    if |items| == 0 then []
    else
      AllValues(items[..|items| - 1], name)
      + (if KeyIs(items[|items| - 1].key, name) then Strings(items[|items| - 1].values) else [])
  }

  /** The groups of the `app` items, in order. */
  function AppsOf(items: seq<ConfigItem>): seq<AppGroup>
    requires AllOk(items)
  {
    if |items| == 0 then []
    else
      var last := items[|items| - 1];
      AppsOf(items[..|items| - 1]) + (if KeyIs(last.key, "app") then [ExpectedApp(last.children)] else [])
  }

  /** The group an `app` block describes: the id from its last `appid` item (null when there
      is none), all `hostnames` values and all `metricnames` values in order. */
  function ExpectedApp(children: seq<ConfigItem>): AppGroup
    requires AppOk(children)
  {
    var appId := match LastIndex(children, "appid")
      case None => None
      case Some(i) => GetString(children[i].values[0]);
    AppGroup(appId, AllValues(children, "hostnames"), AllValues(children, "metricnames"))
  }

  lemma AppOkOfPrefix(children: seq<ConfigItem>)
    requires |children| > 0
    ensures AppOk(children) <==>
      AppOk(children[..|children| - 1])
      && (KeyIs(children[|children| - 1].key, "appid") ==> |children[|children| - 1].values| > 0)
  {
    var pre := children[..|children| - 1];
    if AppOk(pre) && (KeyIs(children[|children| - 1].key, "appid") ==> |children[|children| - 1].values| > 0) {
      forall i | 0 <= i < |children|
        ensures KeyIs(children[i].key, "appid") ==> |children[i].values| > 0
      {
        if i < |pre| { assert children[i] == pre[i]; }
      }
    }
  }

  /** `BuildApp` throws exactly when an `appid` item has no value, and otherwise builds the
      group the block describes. */
  lemma {:induction false} BuildAppMeaning(children: seq<ConfigItem>)
    ensures BuildApp(children).Some? <==> AppOk(children)
    ensures AppOk(children) ==> BuildApp(children) == Some(ExpectedApp(children))
    decreases |children|
  {
    if |children| > 0 {
      var pre := children[..|children| - 1];
      var last := children[|children| - 1];
      BuildAppMeaning(pre);
      AppOkOfPrefix(children);
      if AppOk(children) {
        var g := ExpectedApp(pre);
        assert BuildApp(children) == ApplyAppItem(g, last);
        assert AllValues(children, "hostnames") == AllValues(pre, "hostnames")
          + (if KeyIs(last.key, "hostnames") then Strings(last.values) else []);
        assert AllValues(children, "metricnames") == AllValues(pre, "metricnames")
          + (if KeyIs(last.key, "metricnames") then Strings(last.values) else []);
        assert !(KeyIs(last.key, "hostnames") && KeyIs(last.key, "metricnames"));
        assert LastIndex(children, "appid") ==
          if KeyIs(last.key, "appid") then Some(|children| - 1) else LastIndex(pre, "appid");
        var r := ApplyAppItem(g, last);
        var e := ExpectedApp(children);
        assert r.Some?;
        assert r.value.hostnames == e.hostnames;
        assert r.value.metricNames == e.metricNames;
        if !KeyIs(last.key, "appid") {
          match LastIndex(pre, "appid")
          case None =>
            assert r.value.appId == None == e.appId;
          case Some(i) =>
            assert children[i] == pre[i];
            assert r.value.appId == e.appId;
        }
        assert r.value.appId == e.appId;
        assert r.value == e;
      }
    }
  }

  lemma AllOkOfPrefix(items: seq<ConfigItem>)
    requires |items| > 0
    ensures AllOk(items) <==> AllOk(items[..|items| - 1]) && ItemOk(items[|items| - 1])
  {
    var pre := items[..|items| - 1];
    if AllOk(pre) && ItemOk(items[|items| - 1]) {
      forall i | 0 <= i < |items| ensures ItemOk(items[i]) {
        if i < |pre| { assert items[i] == pre[i]; }
      }
    }
  }

  /** The walk throws exactly when some item throws; otherwise it appends the groups of the
      `app` blocks, in order, to the groups held before. */
  lemma {:induction false} WalkGroups(items: seq<ConfigItem>, groups0: seq<AppGroup>)
    ensures WalkItems(items, groups0).ok <==> AllOk(items)
    ensures AllOk(items) ==> WalkItems(items, groups0).groups == groups0 + AppsOf(items)
    decreases |items|
  {
    if |items| > 0 {
      var last := items[|items| - 1];
      WalkGroups(items[..|items| - 1], groups0);
      AllOkOfPrefix(items);
      if KeyIs(last.key, "app") {
        BuildAppMeaning(last.children);
      }
    }
  }

  /** The hostname after a walk without exception: that of the last `hostname` item, or the
      default when there is none. */
  lemma {:induction false} WalkHostname(items: seq<ConfigItem>, groups0: seq<AppGroup>)
    requires AllOk(items)
    ensures WalkItems(items, groups0).instance.hostname ==
      match LastIndex(items, "hostname")
      case None => DefaultInstance.hostname
      case Some(i) => GetString(items[i].values[0])
    decreases |items|
  {
    if |items| > 0 {
      AllOkOfPrefix(items);
      WalkGroups(items[..|items| - 1], groups0);
      WalkHostname(items[..|items| - 1], groups0);
    }
  }

  /** The port after a walk without exception: that of the last `port` item, or the
      default when there is none. */
  lemma {:induction false} WalkPort(items: seq<ConfigItem>, groups0: seq<AppGroup>)
    requires AllOk(items)
    ensures WalkItems(items, groups0).instance.port ==
      match LastIndex(items, "port")
      case None => DefaultInstance.port
      case Some(i) => DoubleIntValue(items[i].values[0].x)
    decreases |items|
  {
    if |items| > 0 {
      AllOkOfPrefix(items);
      WalkGroups(items[..|items| - 1], groups0);
      WalkPort(items[..|items| - 1], groups0);
    }
  }

  /** The item throws when `config` reaches it, leaving the instance and groups as they
      were. */
  lemma FailingItemKeepsGroups(w: Walk, item: ConfigItem)
    requires !ItemOk(item)
    ensures !ApplyItem(w, item).ok
    ensures ApplyItem(w, item).groups == w.groups
  {
    if KeyIs(item.key, "app") {
      BuildAppMeaning(item.children);
    }
  }

  /** Once the walk has thrown, later items change nothing. */
  lemma {:induction false} WalkAfterFailure(items: seq<ConfigItem>, k: nat, groups0: seq<AppGroup>)
    requires k <= |items|
    requires !WalkItems(items[..k], groups0).ok
    ensures WalkItems(items, groups0) == WalkItems(items[..k], groups0)
    decreases |items| - k
  {
    if k < |items| {
      assert items[..k + 1][..k] == items[..k];
      WalkAfterFailure(items, k + 1, groups0);
    } else {
      assert items[..k] == items;
    }
  }

  /** `config` returns -1 exactly when an item throws or the last `hostname` item's first value
      is not a string (so the hostname is null); it returns 0 otherwise, and only then moves the
      window start to `now - 60000`. A configuration without any `hostname` item succeeds with
      `localhost`. `builder` is assigned exactly when no item throws, whatever the hostname. */
  lemma ConfigStatus(root: ConfigItem, groups0: seq<AppGroup>, ts0: Long, now: Long)
    ensures var c := Config(root, groups0, ts0, now);
      && (c.status == 0 || c.status == -1)
      && (c.status == 0 <==>
           AllOk(root.children) &&
           (forall i :: LastKeyed(root.children, "hostname", i) ==> root.children[i].values[0].CString?))
      && c.ts == (if c.status == 0 then WindowStart(now) else ts0)
      && (c.status == 0 && NoneKeyed(root.children, "hostname") ==> c.instance.hostname == Some("localhost"))
      && (c.built <==> AllOk(root.children))
  {
    var items := root.children;
    WalkGroups(items, groups0);
    if AllOk(items) {
      WalkHostname(items, groups0);
      match LastIndex(items, "hostname")
      case None =>
      case Some(i) =>
        forall j | LastKeyed(items, "hostname", j) ensures j == i {
          LastKeyedUnique(items, "hostname", i, j);
        }
    }
  }

  /** After a `config` in which no item throws: the instance holds the last `hostname` and `port` settings,
      each read from the item's first value, or the defaults `localhost` and 6188; the groups
      are those held before followed by one group per `app` block, in order. */
  lemma ConfigSettings(root: ConfigItem, groups0: seq<AppGroup>, ts0: Long, now: Long)
    requires AllOk(root.children)
    ensures var c := Config(root, groups0, ts0, now);
      && c.groups == groups0 + AppsOf(root.children)
      && (NoneKeyed(root.children, "hostname") ==> c.instance.hostname == Some("localhost"))
      && (forall i :: LastKeyed(root.children, "hostname", i) ==>
            c.instance.hostname == GetString(root.children[i].values[0]))
      && (NoneKeyed(root.children, "port") ==> c.instance.port == 6188)
      && (forall i :: LastKeyed(root.children, "port", i) ==>
            c.instance.port == DoubleIntValue(root.children[i].values[0].x))
  {
    var items := root.children;
    WalkGroups(items, groups0);
    WalkHostname(items, groups0);
    WalkPort(items, groups0);
    forall i | LastKeyed(items, "hostname", i) ensures LastIndex(items, "hostname") == Some(i) {
      LastKeyedUnique(items, "hostname", i, LastIndex(items, "hostname").value);
    }
    forall i | LastKeyed(items, "port", i) ensures LastIndex(items, "port") == Some(i) {
      LastKeyedUnique(items, "port", i, LastIndex(items, "port").value);
    }
  }

  /** When item `f` is the first to throw, `config` returns -1 without assigning `builder`,
      and the groups of the `app` blocks before it stay appended. */
  lemma ConfigKeepsEarlierGroups(root: ConfigItem, groups0: seq<AppGroup>, ts0: Long, now: Long, f: nat)
    requires f < |root.children|
    requires AllOk(root.children[..f]) && !ItemOk(root.children[f])
    ensures var c := Config(root, groups0, ts0, now);
      c.status == -1 && !c.built && c.ts == ts0 && c.groups == groups0 + AppsOf(root.children[..f])
  {
    var items := root.children;
    WalkGroups(items[..f], groups0);
    assert items[..f + 1][..f] == items[..f];
    FailingItemKeepsGroups(WalkItems(items[..f], groups0), items[f]);
    WalkAfterFailure(items, f + 1, groups0);
  }

  /** Two items that differ only in the letter case of their keys and of their children's keys. */
  predicate SameUpToCase(a: ConfigItem, b: ConfigItem)
  {
    && EqualsIgnoreCase(a.key, b.key)
    && a.values == b.values
    && |a.children| == |b.children|
    && forall i :: 0 <= i < |a.children| ==>
         EqualsIgnoreCase(a.children[i].key, b.children[i].key) && a.children[i].values == b.children[i].values
  }

  lemma {:induction false} BuildAppIgnoresCase(a: seq<ConfigItem>, b: seq<ConfigItem>)
    requires |a| == |b|
    requires forall i :: 0 <= i < |a| ==> EqualsIgnoreCase(a[i].key, b[i].key) && a[i].values == b[i].values
    ensures BuildApp(a) == BuildApp(b)
    decreases |a|
  {
    if |a| > 0 {
      BuildAppIgnoresCase(a[..|a| - 1], b[..|b| - 1]);
    }
  }

  lemma {:induction false} WalkIgnoresCase(a: seq<ConfigItem>, b: seq<ConfigItem>, groups0: seq<AppGroup>)
    requires |a| == |b|
    requires forall i :: 0 <= i < |a| ==> SameUpToCase(a[i], b[i])
    ensures WalkItems(a, groups0) == WalkItems(b, groups0)
    decreases |a|
  {
    if |a| > 0 {
      var x, y := a[|a| - 1], b[|b| - 1];
      assert SameUpToCase(x, y);
      WalkIgnoresCase(a[..|a| - 1], b[..|b| - 1], groups0);
      BuildAppIgnoresCase(x.children, y.children);
    }
  }

  /** Keys match case-insensitively: renaming `Hostname` to `HOSTNAME`, `AppId` to `appid`
      and so on changes nothing `config` produces. */
  lemma ConfigIgnoresKeyCase(a: ConfigItem, b: ConfigItem, groups0: seq<AppGroup>, ts0: Long, now: Long)
    requires |a.children| == |b.children|
    requires forall i :: 0 <= i < |a.children| ==> SameUpToCase(a.children[i], b.children[i])
    ensures Config(a, groups0, ts0, now) == Config(b, groups0, ts0, now)
  {
    WalkIgnoresCase(a.children, b.children, groups0);
  }

  predicate Unknown(item: ConfigItem)
  {
    !KeyIs(item.key, "hostname") && !KeyIs(item.key, "port") && !KeyIs(item.key, "app")
  }

  /** An item with any other key is ignored, wherever it stands. */
  lemma {:induction false} ConfigIgnoresUnknownKeys(before: seq<ConfigItem>, u: ConfigItem, after: seq<ConfigItem>,
                                                     groups0: seq<AppGroup>)
    requires Unknown(u)
    ensures WalkItems(before + [u] + after, groups0) == WalkItems(before + after, groups0)
    decreases |after|
  {
    var with, without := before + [u] + after, before + after;
    if |after| == 0 {
      assert with[..|with| - 1] == before && without == before;
    } else {
      var pre := after[..|after| - 1];
      assert with[..|with| - 1] == before + [u] + pre;
      assert without[..|without| - 1] == before + pre;
      ConfigIgnoresUnknownKeys(before, u, pre, groups0);
    }
  }
}

=== FILE: poll_cycle.dfy ===
/** The poll cycle of the collector, `read()`: for each application group in order, write its
    values into the query URL, fetch, and dispatch every sample of the response; then move the
    window start to the clock minus 60 seconds. The clock readings, the fetch outcomes and the
    parsed responses are parameters; the dispatch sink is the returned trace. */
module PollCycle {
  import opened JavaLang
  import opened UrlTemplate
  import opened PluginConfig
  import opened MetricsResponse

  // ---------------------------------------------------------------------------
  // toURLHostnames / toURLMetricnames

  /** The names joined by `,` in list order, a null name written as `null`. */
  function Join(names: seq<JString>): string
    requires |names| > 0
    decreases |names|
  {
    if |names| == 1 then Text(names[0]) else Text(names[0]) + "," + Join(names[1..])
  }

  lemma {:induction false} JoinSnoc(names: seq<JString>, x: JString)
    requires |names| > 0
    ensures Join(names + [x]) == Join(names) + "," + Text(x)
    decreases |names|
  {
    var ys := names + [x];
    if |names| == 1 {
      assert ys[1..] == [x];
    } else {
      assert ys[1..] == names[1..] + [x];
      JoinSnoc(names[1..], x);
      var a, b, c := Text(names[0]), Join(names[1..]), Text(x);
      calc {
        Join(ys);
        a + "," + (b + "," + c);
        { ConcatAssoc(a + ",", b + ",", c); ConcatAssoc(a + ",", b, ","); }
        a + "," + b + "," + c;
      }
    }
  }

  /** The `StringBuilder` loop of `toURLHostnames` and `toURLMetricnames` (the two are the same
      loop over different lists). Like them it needs a non-empty list. */
  method ToURLList(names: seq<JString>) returns (r: string)
    requires |names| > 0
    ensures r == Join(names)
  {
    r := Text(names[0]);
    var i := 1;
    assert names[..1] == [names[0]];
    while i < |names|
      invariant 1 <= i <= |names|
      invariant r == Join(names[..i])
    {
      assert names[..i + 1] == names[..i] + [names[i]];
      JoinSnoc(names[..i], names[i]);
      r := r + "," + Text(names[i]);
      i := i + 1;
    }
    assert names[..i] == names;
  }

  /** Cutting a string at every `,`. */
  function Split(s: string): (r: seq<string>)
    ensures |r| > 0
    decreases |s|
  {
    if |s| == 0 then [""]
    else
      var rest := Split(s[1..]);
      if s[0] == ',' then [""] + rest else [[s[0]] + rest[0]] + rest[1..]
  }

  lemma {:induction false} SplitCommaFree(x: string, t: string)
    requires ',' !in x
    ensures Split(x + t) == [x + Split(t)[0]] + Split(t)[1..]
    decreases |x|
  {
    if |x| > 0 {
      var s := x + t;
      assert s[1..] == x[1..] + t;
      assert x[1..] + t == s[1..];
      assert x[0] in x;
      SplitCommaFree(x[1..], t);
      var rest := Split(s[1..]);
      assert rest == [x[1..] + Split(t)[0]] + Split(t)[1..];
      assert rest[0] == x[1..] + Split(t)[0];
      assert rest[1..] == Split(t)[1..];
      assert Split(s) == [[x[0]] + rest[0]] + rest[1..];
      ConcatAssoc([x[0]], x[1..], Split(t)[0]);
      assert [x[0]] + x[1..] == x;
    } else {
      var r := Split(t);
      assert x + t == t;
      assert x + r[0] == r[0];
      assert r == [r[0]] + r[1..];
    }
  }

  function Texts(names: seq<JString>): (r: seq<string>)
    ensures |r| == |names|
  {
    seq(|names|, i requires 0 <= i < |names| => Text(names[i]))
  }

  /** Splitting at the commas gives the names back, as long as no name contains a comma. */
  lemma {:induction false} SplitJoin(names: seq<JString>)
    requires |names| > 0
    requires forall i :: 0 <= i < |names| ==> ',' !in Text(names[i])
    ensures Split(Join(names)) == Texts(names)
    decreases |names|
  {
    var x := Text(names[0]);
    if |names| == 1 {
      SplitCommaFree(x, "");
      assert x + "" == x;
      assert Split("") == [""];
      assert Split(x) == [x];
      assert Texts(names) == [x];
    } else {
      SplitJoin(names[1..]);
      var j := Join(names[1..]);
      ConcatAssoc(x, ",", j);
      SplitCommaFree(x, "," + j);
      assert ("," + j)[1..] == j;
      var sj := Split("," + j);
      assert sj == [""] + Split(j);
      assert sj[0] == "" && sj[1..] == Split(j);
      assert x + sj[0] == x;
      assert Join(names) == x + ("," + j);
      assert Split(Join(names)) == [x] + Texts(names[1..]);
      assert Texts(names) == [x] + Texts(names[1..]);
    }
  }

  /** A character that is not a comma appears in the joined text only if some name has it. */
  lemma {:induction false} JoinAvoids(names: seq<JString>, c: char)
    requires |names| > 0 && c != ','
    requires forall i :: 0 <= i < |names| ==> c !in Text(names[i])
    ensures c !in Join(names)
    decreases |names|
  {
    if |names| > 1 {
      JoinAvoids(names[1..], c);
    }
  }

  // ---------------------------------------------------------------------------
  // read()

  /** The outcome of a group's request. `BadUri`: the URL is not a valid URI, so
      `new HttpGet(baseUrl)` throws IllegalArgumentException before the `try` and no request
      is sent. Otherwise the request is executed and ends in an IOException or yields the
      parsed body. */
  datatype Fetch = BadUri | IOError | Fetched(response: Response)

  /** The `instance` and `builder` fields as `read` finds them. `instance` is null until
      `config` has run. `builder` is set (`client`) once a `config` call has got through its
      item loop, and stays null after a `config` that threw. */
  datatype Fields = Unconfigured | Configured(client: bool)

  /** An HTTP GET issued for group `group`. */
  datatype Request = Request(group: nat, url: string)

  /** How each group's URL is obtained. `AsWritten`: the `replace` calls reassign the one
      `baseUrl` string that all groups share. `PerGroup`: the same calls start again from the
      URL with only the collector's host and port filled in, for every group. */
  datatype Builder = AsWritten | PerGroup

  /** The state of the group loop: still running (no unchecked exception), the numbers of the
      groups whose request was issued, and the samples dispatched so far. */
  datatype LoopState = LoopState(running: bool, issued: seq<nat>, trace: seq<Dispatch>)

  /** What a cycle leaves behind: whether `read` returned 0 (rather than throwing), the
      window start `ts`, the numbers of the groups it issued a request for, in order, and the
      dispatches it made. The URLs of the requests are given by `ReadRequests`. */
  datatype Cycle = Cycle(completed: bool, ts: Long, issued: seq<nat>, trace: seq<Dispatch>)

  /** A group with hosts and metrics, for which a request is issued. */
  predicate Processed(g: AppGroup)
  {
    |g.hostnames| > 0 && |g.metricNames| > 0
  }

  /** A group that issues a request when the loop reaches it. */
  predicate Requesting(g: AppGroup)
  {
    g.appId.Some? && Processed(g)
  }

  /** The query for group `g` under the application id `appId`. */
  function GroupQuery(host: string, port: Int32, appId: string, g: AppGroup, start: Long, end: Long): Query
    requires Processed(g)
  {
    Query(host, port, Join(g.metricNames), Join(g.hostnames), appId, start, end)
  }

  /** The URL template with the collector's host and port written in. */
  function EndpointUrl(host: string, port: Int32): string
  {
    Replace(Replace(Render(Template), Placeholder(HostKey), host), Placeholder(PortKey), LongStr(port))
  }

  /** `url.replace("{{appId}}", appId)`. */
  function WithAppId(url: string, appId: string): string
  {
    Replace(url, Placeholder(AppIdKey), appId)
  }

  /** The four further `replace` calls made for a processed group. */
  function WithFields(url: string, g: AppGroup, start: Long, end: Long): string
    requires Processed(g)
  {
    Replace(Replace(Replace(Replace(url,
      Placeholder(HostnameKey), Join(g.hostnames)),
      Placeholder(MetricNameKey), Join(g.metricNames)),
      Placeholder(StartKey), LongStr(start)),
      Placeholder(EndKey), LongStr(end))
  }

  /** The `replace` calls that group `g` makes on `url`: its application id, then, when it has
      hosts and metrics, its names and times. A null id makes the first call throw; the loop
      never gets past such a group, and the string is left as it is. */
  function Fill(url: string, g: AppGroup, start: Long, end: Long): string
  {
    match g.appId
    case None => url
    case Some(a) => if Processed(g) then WithFields(WithAppId(url, a), g, start, end) else WithAppId(url, a)
  }

  /** The shared `baseUrl` string when the loop reaches group `i`: the endpoint URL `base`,
      reassigned by every earlier group's `replace` calls in turn. */
  function SharedUrl(base: string, groups: seq<AppGroup>, start: Long, ends: seq<Long>, i: nat): string
    requires i <= |groups| && |ends| == |groups|
    decreases i
  {
    if i == 0 then base
    else Fill(SharedUrl(base, groups, start, ends, i - 1), groups[i - 1], start, ends[i - 1])
  }

  /** The URL of group `i`'s request. As written, it is the shared string once group `i`'s
      `replace` calls have reassigned it; built afresh, it is those calls applied to the
      endpoint URL. */
  function GroupUrl(b: Builder, base: string, groups: seq<AppGroup>, start: Long, ends: seq<Long>, i: nat): string
    requires i < |groups| && |ends| == |groups|
  {
    if b == AsWritten then SharedUrl(base, groups, start, ends, i + 1) else Fill(base, groups[i], start, ends[i])
  }

  /** One iteration of the group loop, for group number `i`; `client` says whether `builder`
      is set. A null application id throws; a group without hosts or metrics is skipped; a URL
      that is not a URI, or a null `builder`, throws before the request is sent; an
      IOException is caught; a response that cannot be walked throws. */
  function Step(st: LoopState, g: AppGroup, i: nat, fetch: Fetch, client: bool): LoopState
  {
    match g.appId
    case None => st.(running := false)
    case Some(a) =>
      if !Processed(g) then st
      else if fetch.BadUri? || !client then st.(running := false)
      else
        var issued := st.issued + [i];
        if fetch.IOError? then st.(issued := issued)
        else
          var e := DispatchResponse(a, fetch.response);
          LoopState(!e.failed, issued, st.trace + e.trace)
  }

  /** The group loop from group `i` on; `fetches[i]` is the outcome of group `i`'s request. */
  function Run(st: LoopState, groups: seq<AppGroup>, fetches: seq<Fetch>, client: bool, i: nat): LoopState
    requires i <= |groups| && |fetches| == |groups|
    decreases |groups| - i
  {
    if i == |groups| || !st.running then st
    else Run(Step(st, groups[i], i, fetches[i], client), groups, fetches, client, i + 1)
  }

  /** The requests made for the issued groups, in order. */
  function Requests(b: Builder, base: string, groups: seq<AppGroup>, start: Long, ends: seq<Long>,
                    issued: seq<nat>): (r: seq<Request>)
    requires |ends| == |groups| && IssuedOk(groups, issued)
    ensures |r| == |issued|
  {
    seq(|issued|, k requires 0 <= k < |issued| =>
      Request(issued[k], GroupUrl(b, base, groups, start, ends, issued[k])))
  }

  /** `read()`. `ts` is the window start before the cycle, `fields` and `inst` what `config`
      left (`inst` is not read while `instance` is null), `fetches[i]` the outcome of group
      `i`'s request, `now` the clock read after the loop. A null `instance` or a null
      collector hostname makes the first `replace` throw. */
  function Read(ts: Long, fields: Fields, inst: Instance, groups: seq<AppGroup>, fetches: seq<Fetch>,
                now: Long): Cycle
    requires |fetches| == |groups|
  {
    match fields
    case Unconfigured => Cycle(false, ts, [], [])
    case Configured(client) =>
      match inst.hostname
      case None => Cycle(false, ts, [], [])
      case Some(_) =>
        var st := Run(LoopState(true, [], []), groups, fetches, client, 0);
        if st.running then Cycle(true, WindowStart(now), st.issued, st.trace)
        else Cycle(false, ts, st.issued, st.trace)
  }

  /** The requests `read()` issues, in order, with the URL each one carries under builder `b`:
      `AsWritten` is the collector's code, `PerGroup` the corrected one. `ends[i]` is the clock
      read for group `i`'s end time. */
  function ReadRequests(b: Builder, ts: Long, fields: Fields, inst: Instance, groups: seq<AppGroup>,
                        ends: seq<Long>, fetches: seq<Fetch>, now: Long): (r: seq<Request>)
    requires |ends| == |groups| && |fetches| == |groups|
    ensures GroupsOf(r) == Read(ts, fields, inst, groups, fetches, now).issued
  {
    match fields
    case Unconfigured => []
    case Configured(client) =>
      match inst.hostname
      case None => []
      case Some(h) => LoopRequests(b, EndpointUrl(h, inst.port), groups, ts, ends, fetches, client)
  }

  /** The requests the group loop issues, from the endpoint URL `base`. */
  function LoopRequests(b: Builder, base: string, groups: seq<AppGroup>, start: Long, ends: seq<Long>,
                        fetches: seq<Fetch>, client: bool): (r: seq<Request>)
    requires |ends| == |groups| && |fetches| == |groups|
    ensures GroupsOf(r) == Run(LoopState(true, [], []), groups, fetches, client, 0).issued
  {
    var st0 := LoopState(true, [], []);
    RunIssuedOk(st0, groups, fetches, client, 0);
    var issued := Run(st0, groups, fetches, client, 0).issued;
    RequestsGroups(b, base, groups, start, ends, issued);
    Requests(b, base, groups, start, ends, issued)
  }

  // ---------------------------------------------------------------------------
  // What a cycle does, group by group

  /** Every group before group `n` has an application id. */
  predicate IdsBefore(groups: seq<AppGroup>, n: nat)
    requires n <= |groups|
  {
    forall m :: 0 <= m < n ==> groups[m].appId.Some?
  }

  /** Each issued group is a requesting group that the loop reached: it and every group before
      it have an application id. */
  predicate IssuedOk(groups: seq<AppGroup>, issued: seq<nat>)
  {
    forall k :: 0 <= k < |issued| ==>
      issued[k] < |groups| && Requesting(groups[issued[k]]) && IdsBefore(groups, issued[k])
  }

  /** The group does not make `read` throw: it has an application id, and when it has hosts
      and metrics, its URL is a URI, `builder` is set, and a fetched response can be walked. */
  predicate GroupOk(g: AppGroup, f: Fetch, client: bool)
  {
    && g.appId.Some?
    && (Processed(g) ==> client && !f.BadUri?)
    && (Processed(g) && f.Fetched? ==> !DispatchResponse(g.appId.value, f.response).failed)
  }

  predicate AllGroupsOk(groups: seq<AppGroup>, fetches: seq<Fetch>, client: bool, i: nat)
    requires |fetches| == |groups|
  {
    forall k :: i <= k < |groups| ==> GroupOk(groups[k], fetches[k], client)
  }

  /** What group `g` contributes to the trace: the samples of its response, when it is
      processed and its fetch succeeded, and nothing otherwise. */
  function GroupTrace(g: AppGroup, f: Fetch): seq<Dispatch>
  {
    if Requesting(g) && f.Fetched? then DispatchResponse(g.appId.value, f.response).trace
    else []
  }

  function GroupsTrace(groups: seq<AppGroup>, fetches: seq<Fetch>, i: nat): seq<Dispatch>
    requires i <= |groups| && |fetches| == |groups|
    decreases |groups| - i
  {
    if i == |groups| then [] else GroupTrace(groups[i], fetches[i]) + GroupsTrace(groups, fetches, i + 1)
  }

  /** The numbers, from `i` on, of the groups with an application id, hosts and metrics. */
  function RequestingFrom(groups: seq<AppGroup>, i: nat): seq<nat>
    requires i <= |groups|
    decreases |groups| - i
  {
    if i == |groups| then []
    else (if Requesting(groups[i]) then [i] else []) + RequestingFrom(groups, i + 1)
  }

  /** The group numbers of the requests, in order. */
  function GroupsOf(requests: seq<Request>): (r: seq<nat>)
    ensures |r| == |requests|
  {
    seq(|requests|, k requires 0 <= k < |requests| => requests[k].group)
  }

  lemma PrefixOfConcat<T>(a: seq<T>, b: seq<T>)
    ensures a <= a + b
  {
    assert (a + b)[..|a|] == a;
  }

  /** What one iteration does: it goes on exactly when the group does not throw. A group
      that does not throw issues a request exactly when it has an id, hosts and metrics, and
      adds its samples. A group that throws has issued a request only when one was sent
      (a URI and a `builder`), and has added what the walk of its response dispatched before
      the throw; so it has issued and added at most that much. */
  lemma StepShape(st: LoopState, g: AppGroup, i: nat, fetch: Fetch, client: bool)
    ensures var s := Step(st, g, i, fetch, client);
      && (st.running ==> s.running == GroupOk(g, fetch, client))
      && (GroupOk(g, fetch, client) ==> s.trace == st.trace + GroupTrace(g, fetch))
      && (GroupOk(g, fetch, client) ==> s.issued == st.issued + (if Requesting(g) then [i] else []))
      && (!GroupOk(g, fetch, client) ==> s.trace == st.trace + ThrownTrace(g, fetch, client))
      && (!GroupOk(g, fetch, client) ==> s.issued == st.issued + ThrownIssued(g, i, fetch, client))
      && s.trace <= st.trace + GroupTrace(g, fetch)
      && s.issued <= st.issued + (if Requesting(g) then [i] else [])
  {
    PrefixOfConcat(st.trace, GroupTrace(g, fetch));
    PrefixOfConcat(st.issued, if Requesting(g) then [i] else []);
  }

  /** The samples a throwing group dispatched: with `builder` set, what the walk of its
      response dispatched before the throw (nothing when it has no id or no URI). */
  function ThrownTrace(g: AppGroup, fetch: Fetch, client: bool): seq<Dispatch>
  {
    if client then GroupTrace(g, fetch) else []
  }

  /** The request a throwing group sent: one, when it got past `new HttpGet` and
      `builder.build()`, which only a response it cannot walk makes throw afterwards. */
  function ThrownIssued(g: AppGroup, i: nat, fetch: Fetch, client: bool): seq<nat>
  {
    if client && Requesting(g) && !fetch.BadUri? then [i] else []
  }

  /** A group with an id, hosts and metrics whose URL is not a URI, or which finds `builder`
      null, ends the cycle before its request is sent and before anything is dispatched for
      it. */
  lemma UnsentGroupEndsLoop(st: LoopState, g: AppGroup, i: nat, fetch: Fetch, client: bool)
    requires Requesting(g) && (fetch.BadUri? || !client)
    ensures Step(st, g, i, fetch, client) == LoopState(false, st.issued, st.trace)
  {
  }

  lemma {:induction false} RunMeaning(st: LoopState, groups: seq<AppGroup>, fetches: seq<Fetch>, client: bool,
                                      i: nat)
    requires i <= |groups| && |fetches| == |groups|
    requires st.running
    ensures var r := Run(st, groups, fetches, client, i);
      && (r.running <==> AllGroupsOk(groups, fetches, client, i))
      && r.trace <= st.trace + GroupsTrace(groups, fetches, i)
      && (r.running ==> r.trace == st.trace + GroupsTrace(groups, fetches, i))
      && r.issued <= st.issued + RequestingFrom(groups, i)
      && (r.running ==> r.issued == st.issued + RequestingFrom(groups, i))
    decreases |groups| - i
  {
    if i == |groups| {
      assert st.issued + [] == st.issued;
      assert st.trace + [] == st.trace;
    } else {
      var g, f := groups[i], fetches[i];
      var st' := Step(st, g, i, f, client);
      var own := if Requesting(g) then [i] else [];
      StepShape(st, g, i, f, client);
      assert AllGroupsOk(groups, fetches, client, i)
        <==> GroupOk(g, f, client) && AllGroupsOk(groups, fetches, client, i + 1);
      ConcatAssoc(st.issued, own, RequestingFrom(groups, i + 1));
      ConcatAssoc(st.trace, GroupTrace(g, f), GroupsTrace(groups, fetches, i + 1));
      if st'.running {
        RunMeaning(st', groups, fetches, client, i + 1);
      } else {
        PrefixOfConcat(st.issued + own, RequestingFrom(groups, i + 1));
        PrefixOfConcat(st.trace + GroupTrace(g, f), GroupsTrace(groups, fetches, i + 1));
      }
    }
  }

  /** When group `k` is the first from `i` on to throw, the loop stops there, having
      dispatched every sample of groups `i` to `k - 1` and what group `k` dispatched before
      the throw, and having sent the requests of groups `i` to `k - 1` with an id, hosts
      and metrics and group `k`'s when it was sent. */
  lemma {:induction false} RunStopsAt(st: LoopState, groups: seq<AppGroup>, fetches: seq<Fetch>, client: bool,
                                      i: nat, k: nat)
    requires i <= k < |groups| && |fetches| == |groups| && st.running
    requires forall m :: i <= m < k ==> GroupOk(groups[m], fetches[m], client)
    requires !GroupOk(groups[k], fetches[k], client)
    ensures var r := Run(st, groups, fetches, client, i);
      && !r.running
      && r.trace == st.trace + GroupsTrace(groups[..k], fetches[..k], i)
                    + ThrownTrace(groups[k], fetches[k], client)
      && r.issued == st.issued + RequestingFrom(groups[..k], i)
                     + ThrownIssued(groups[k], k, fetches[k], client)
    decreases k - i
  {
    var g, f := groups[i], fetches[i];
    var st' := Step(st, g, i, f, client);
    StepShape(st, g, i, f, client);
    if i == k {
      assert GroupsTrace(groups[..k], fetches[..k], i) == [];
      assert RequestingFrom(groups[..k], i) == [];
      assert st.trace + [] == st.trace;
      assert st.issued + [] == st.issued;
    } else {
      RunStopsAt(st', groups, fetches, client, i + 1, k);
      assert groups[..k][i] == g && fetches[..k][i] == f;
      var own := if Requesting(g) then [i] else [];
      assert GroupsTrace(groups[..k], fetches[..k], i)
          == GroupTrace(g, f) + GroupsTrace(groups[..k], fetches[..k], i + 1);
      assert RequestingFrom(groups[..k], i) == own + RequestingFrom(groups[..k], i + 1);
      ConcatAssoc(st.trace, GroupTrace(g, f), GroupsTrace(groups[..k], fetches[..k], i + 1));
      ConcatAssoc(st.issued, own, RequestingFrom(groups[..k], i + 1));
    }
  }

  /** Every group before group `n` let the loop pass without throwing. */
  predicate PassedBefore(groups: seq<AppGroup>, fetches: seq<Fetch>, client: bool, n: nat)
    requires |fetches| == |groups|
  {
    forall m :: 0 <= m < n && m < |groups| ==> GroupOk(groups[m], fetches[m], client)
  }

  /** Only requesting groups the loop reached are issued: every group before an issued one
      has an id and let the loop pass. */
  lemma {:induction false} RunIssuedOk(st: LoopState, groups: seq<AppGroup>, fetches: seq<Fetch>, client: bool,
                                       i: nat)
    requires i <= |groups| && |fetches| == |groups|
    requires IssuedOk(groups, st.issued) && (st.running ==> IdsBefore(groups, i))
    requires forall k :: 0 <= k < |st.issued| ==> PassedBefore(groups, fetches, client, st.issued[k])
    requires st.running ==> PassedBefore(groups, fetches, client, i)
    ensures var r := Run(st, groups, fetches, client, i);
      && IssuedOk(groups, r.issued)
      && forall k :: 0 <= k < |r.issued| ==> PassedBefore(groups, fetches, client, r.issued[k])
    decreases |groups| - i
  {
    if i < |groups| && st.running {
      var g := groups[i];
      var st' := Step(st, g, i, fetches[i], client);
      StepShape(st, g, i, fetches[i], client);
      assert st'.issued == st.issued || st'.issued == st.issued + [i];
      if g.appId.Some? {
        assert IdsBefore(groups, i + 1);
        assert IssuedOk(groups, st'.issued) by {
          forall k | 0 <= k < |st'.issued|
            ensures st'.issued[k] < |groups| && Requesting(groups[st'.issued[k]]) && IdsBefore(groups, st'.issued[k])
          {
            if k < |st.issued| {
              assert st'.issued[k] == st.issued[k];
            }
          }
        }
      }
      forall k | 0 <= k < |st'.issued|
        ensures PassedBefore(groups, fetches, client, st'.issued[k])
      {
        if k < |st.issued| {
          assert st'.issued[k] == st.issued[k];
        }
      }
      if st'.running {
        assert PassedBefore(groups, fetches, client, i + 1);
      }
      RunIssuedOk(st', groups, fetches, client, i + 1);
    }
  }

  lemma RequestsGroups(b: Builder, base: string, groups: seq<AppGroup>, start: Long, ends: seq<Long>,
                       issued: seq<nat>)
    requires |ends| == |groups| && IssuedOk(groups, issued)
    ensures GroupsOf(Requests(b, base, groups, start, ends, issued)) == issued
  {
  }

  /** `read` returns 0 exactly when `config` has run, the collector's hostname is not null
      and no group throws (through a null application id, or, for a group with hosts and
      metrics, a URL that is not a URI, a null `builder`, or a response whose shape the
      collector cannot walk); only then is the window start moved, to the clock after the
      loop minus 60 seconds, however many groups were skipped or failed with an IOException. The groups requested
      are the leading part of those with hosts and metrics, in order, and the samples
      dispatched are the leading part of every fetched response's samples, group after group;
      a completed cycle requests every such group and dispatches all of those samples (a
      leading part of full length). A group whose fetch failed adds nothing. */
  lemma ReadMeaning(ts: Long, fields: Fields, inst: Instance, groups: seq<AppGroup>, fetches: seq<Fetch>,
                    now: Long)
    requires |fetches| == |groups|
    ensures var c := Read(ts, fields, inst, groups, fetches, now);
      && (c.completed <==>
            fields.Configured? && inst.hostname.Some? && AllGroupsOk(groups, fetches, fields.client, 0))
      && c.ts == (if c.completed then WindowStart(now) else ts)
      && c.issued <= RequestingFrom(groups, 0)
      && (c.completed ==> c.issued == RequestingFrom(groups, 0))
      && c.trace <= GroupsTrace(groups, fetches, 0)
      && (c.completed ==> |c.trace| == |GroupsTrace(groups, fetches, 0)|)
  {
    if fields.Configured? && inst.hostname.Some? {
      RunMeaning(LoopState(true, [], []), groups, fetches, fields.client, 0);
    }
  }

  /** When group `k` is the first to throw, `read` throws with `ts` unchanged. What was
      dispatched before the throw stays dispatched: every sample of the groups before `k`,
      in order, and, with `builder` set, what the walk of group `k`'s response dispatched.
      The requests sent are those of the groups before `k` with an id, hosts and metrics,
      and group `k`'s when it got past `new HttpGet` and `builder.build()`. With a null
      `instance` or hostname nothing is sent or dispatched. */
  lemma ReadStopsAt(ts: Long, fields: Fields, inst: Instance, groups: seq<AppGroup>, fetches: seq<Fetch>,
                    now: Long, k: nat)
    requires |fetches| == |groups| && k < |groups|
    requires forall m :: 0 <= m < k ==> GroupOk(groups[m], fetches[m], fields.Configured? && fields.client)
    requires !GroupOk(groups[k], fetches[k], fields.Configured? && fields.client)
    ensures var c := Read(ts, fields, inst, groups, fetches, now);
      && !c.completed && c.ts == ts
      && c.trace == (if fields.Configured? && inst.hostname.Some?
                     then GroupsTrace(groups[..k], fetches[..k], 0) + ThrownTrace(groups[k], fetches[k], fields.client)
                     else [])
      && c.issued == (if fields.Configured? && inst.hostname.Some?
                      then RequestingFrom(groups[..k], 0) + ThrownIssued(groups[k], k, fetches[k], fields.client)
                      else [])
  {
    if fields.Configured? && inst.hostname.Some? {
      var st0 := LoopState(true, [], []);
      RunStopsAt(st0, groups, fetches, fields.client, 0, k);
      assert [] + GroupsTrace(groups[..k], fetches[..k], 0) == GroupsTrace(groups[..k], fetches[..k], 0);
      assert [] + RequestingFrom(groups[..k], 0) == RequestingFrom(groups[..k], 0);
    }
  }

  /** A group without hosts or without metrics issues no request and dispatches nothing. */
  lemma SkippedGroupIsInert(st: LoopState, g: AppGroup, i: nat, fetch: Fetch, client: bool)
    requires g.appId.Some? && !Processed(g)
    ensures Step(st, g, i, fetch, client) == st
  {
  }

  /** An IOException on one group's fetch is caught: the group's request was issued, nothing is
      dispatched for it, and the loop goes on. */
  lemma FetchErrorIsIsolated(st: LoopState, g: AppGroup, i: nat)
    requires Requesting(g)
    ensures var s := Step(st, g, i, IOError, true);
      s.running == st.running && s.trace == st.trace && s.issued == st.issued + [i]
  {
  }

  /** With `builder` null the loop sends no request and dispatches nothing. */
  lemma {:induction false} RunWithoutClient(st: LoopState, groups: seq<AppGroup>, fetches: seq<Fetch>, i: nat)
    requires i <= |groups| && |fetches| == |groups|
    ensures var r := Run(st, groups, fetches, false, i);
      r.issued == st.issued && r.trace == st.trace
    decreases |groups| - i
  {
    if i < |groups| && st.running {
      RunWithoutClient(Step(st, groups[i], i, fetches[i], false), groups, fetches, i + 1);
    }
  }

  /** With `builder` null, `read` sends no request and dispatches nothing; it completes only
      when the hostname is set, every group has an id and no group has both hosts and metrics
      (the first such group throws at `builder.build()`). */
  lemma ReadWithoutClient(ts: Long, inst: Instance, groups: seq<AppGroup>, fetches: seq<Fetch>, now: Long)
    requires |fetches| == |groups|
    ensures var c := Read(ts, Configured(false), inst, groups, fetches, now);
      && c.issued == [] && c.trace == []
      && (c.completed <==>
            inst.hostname.Some? && forall k :: 0 <= k < |groups| ==> groups[k].appId.Some? && !Processed(groups[k]))
  {
    ReadMeaning(ts, Configured(false), inst, groups, fetches, now);
    if inst.hostname.Some? {
      RunWithoutClient(LoopState(true, [], []), groups, fetches, 0);
    }
  }

  /** The `instance` and `builder` fields after `config` returned `c`: `instance` is always
      assigned, `builder` is set when this call or an earlier one assigned it. */
  function FieldsAfter(before: Fields, c: ConfigResult): Fields
  {
    Configured(c.built || (before.Configured? && before.client))
  }

  /** When the first `config` throws, `read` is still called: on the fields it left, a cycle
      sends no request and dispatches nothing, and completes only when no group has both
      hosts and metrics. */
  lemma FailedConfigSendsNothing(root: ConfigItem, ts0: Long, now0: Long, fetches: seq<Fetch>, now: Long)
    requires !AllOk(root.children)
    requires |fetches| == |Config(root, [], ts0, now0).groups|
    ensures var c := Config(root, [], ts0, now0);
            var r := Read(c.ts, FieldsAfter(Unconfigured, c), c.instance, c.groups, fetches, now);
      && c.status == -1 && r.issued == [] && r.trace == []
      && (r.completed ==> forall k :: 0 <= k < |c.groups| ==> !Processed(c.groups[k]))
  {
    var c := Config(root, [], ts0, now0);
    ConfigStatus(root, [], ts0, now0);
    ReadWithoutClient(c.ts, c.instance, c.groups, fetches, now);
  }

  // ---------------------------------------------------------------------------
  // The URLs

  /** The text written into the URL contains no `{`: the collector's hostname, the
      application ids, and every host and metric name. */
  predicate Unbraced(inst: Instance, groups: seq<AppGroup>)
  {
    && (inst.hostname.Some? ==> '{' !in inst.hostname.value)
    && forall k :: 0 <= k < |groups| ==>
         && (groups[k].appId.Some? ==> '{' !in groups[k].appId.value)
         && (forall j :: 0 <= j < |groups[k].hostnames| ==> '{' !in Text(groups[k].hostnames[j]))
         && (forall j :: 0 <= j < |groups[k].metricNames| ==> '{' !in Text(groups[k].metricNames[j]))
  }

  /** The first processed group from `i` on. */
  function FirstProcessed(groups: seq<AppGroup>, i: nat): (r: Option<nat>)
    requires i <= |groups|
    ensures r.None? ==> forall k :: i <= k < |groups| ==> !Processed(groups[k])
    ensures r.Some? ==> i <= r.value < |groups| && Processed(groups[r.value])
    ensures r.Some? ==> forall k :: i <= k < r.value ==> !Processed(groups[k])
    decreases |groups| - i
  {
    if i == |groups| then None
    else if Processed(groups[i]) then Some(i)
    else FirstProcessed(groups, i + 1)
  }

  /** Replacing in a string that has no `{` changes nothing. */
  lemma ReplaceInResolved(u: string, n: string, v: string)
    requires '{' !in u
    ensures Replace(u, Placeholder(n), v) == u
  {
    NoOccurrenceWithoutFirstChar(u, Placeholder(n));
    ReplaceAbsent(u, Placeholder(n), v);
  }

  /** Once the shared URL has no placeholder left, a group's `replace` calls change it no
      more. */
  lemma FillResolved(u: string, g: AppGroup, start: Long, end: Long)
    requires '{' !in u
    ensures Fill(u, g, start, end) == u
  {
    if g.appId.Some? {
      ReplaceInResolved(u, AppIdKey, g.appId.value);
      if Processed(g) {
        ReplaceInResolved(u, HostnameKey, Join(g.hostnames));
        ReplaceInResolved(u, MetricNameKey, Join(g.metricNames));
        ReplaceInResolved(u, StartKey, LongStr(start));
        ReplaceInResolved(u, EndKey, LongStr(end));
      }
    }
  }

  /** The URL of the first processed group `f`: its own names and end time, but the
      application id of group 0. */
  function FirstUrl(host: string, port: Int32, groups: seq<AppGroup>, start: Long, ends: seq<Long>, f: nat): string
    requires f < |groups| && |ends| == |groups| && Processed(groups[f]) && groups[0].appId.Some?
  {
    BuildQuery(GroupQuery(host, port, groups[0].appId.value, groups[f], start, ends[f]))
  }

  /** Writing group `g`'s fields into the URL that holds the application id `appId` gives the
      group's query URL, with no `{` left. */
  lemma FieldsResolve(host: string, port: Int32, appId: string, g: AppGroup, start: Long, end: Long)
    requires Processed(g) && '{' !in host && '{' !in appId
    requires forall j :: 0 <= j < |g.hostnames| ==> '{' !in Text(g.hostnames[j])
    requires forall j :: 0 <= j < |g.metricNames| ==> '{' !in Text(g.metricNames[j])
    ensures WithFields(Render(AppFilled(host, port, appId)), g, start, end)
         == BuildQuery(GroupQuery(host, port, appId, g, start, end))
    ensures '{' !in BuildQuery(GroupQuery(host, port, appId, g, start, end))
  {
    var q := GroupQuery(host, port, appId, g, start, end);
    JoinAvoids(g.hostnames, '{');
    JoinAvoids(g.metricNames, '{');
    ReplaceGroupFields(q);
    BuildQueryBraceFree(q);
  }

  /** A group without hosts or metrics makes only the `{{appId}}` call, if it has an id. */
  lemma FillUnprocessed(u: string, g: AppGroup, start: Long, end: Long, r: string)
    requires !Processed(g)
    requires g.appId.Some? ==> WithAppId(u, g.appId.value) == r
    requires g.appId.None? ==> u == r
    ensures Fill(u, g, start, end) == r
  {
  }

  /** Up to the first processed group, the shared URL is the endpoint URL `e` and, once
      group 0 has written its application id into it, `a`, which later ids leave alone. */
  lemma {:induction false} SharedBeforeFirst(base: string, groups: seq<AppGroup>, start: Long, ends: seq<Long>,
                                             i: nat, a: string)
    requires 0 < |groups| && i <= |groups| && |ends| == |groups| && groups[0].appId.Some?
    requires WithAppId(base, groups[0].appId.value) == a
    requires forall x :: WithAppId(a, x) == a
    requires forall k :: 0 <= k < i ==> !Processed(groups[k])
    ensures SharedUrl(base, groups, start, ends, i) == if i == 0 then base else a
    decreases i
  {
    if i > 0 {
      SharedBeforeFirst(base, groups, start, ends, i - 1, a);
      var g := groups[i - 1];
      if i == 1 {
        FillUnprocessed(base, g, start, ends[0], a);
      } else {
        FillUnprocessed(a, g, start, ends[i - 1], a);
      }
    }
  }

  /** Right after the first processed group `f`, the shared URL is `q`, the URL that group
      `f`'s fields make of `a`. */
  lemma SharedAtFirst(base: string, groups: seq<AppGroup>, start: Long, ends: seq<Long>,
                      f: nat, a: string, q: string)
    requires f < |groups| && |ends| == |groups| && groups[0].appId.Some? && groups[f].appId.Some?
    requires FirstProcessed(groups, 0) == Some(f)
    requires WithAppId(base, groups[0].appId.value) == a
    requires forall x :: WithAppId(a, x) == a
    requires WithFields(a, groups[f], start, ends[f]) == q
    ensures SharedUrl(base, groups, start, ends, f + 1) == q
  {
    SharedBeforeFirst(base, groups, start, ends, f, a);
    assert WithAppId(SharedUrl(base, groups, start, ends, f), groups[f].appId.value) == a;
  }

  /** From the first processed group `f` on, the shared URL is `q`, the URL that group `f`'s
      fields make of `a`, and stays so when `q` has no `{` left. */
  lemma {:induction false} SharedAfterFirst(base: string, groups: seq<AppGroup>, start: Long, ends: seq<Long>,
                                            f: nat, i: nat, a: string, q: string)
    requires f < i <= |groups| && |ends| == |groups| && groups[0].appId.Some? && groups[f].appId.Some?
    requires FirstProcessed(groups, 0) == Some(f)
    requires WithAppId(base, groups[0].appId.value) == a
    requires forall x :: WithAppId(a, x) == a
    requires WithFields(a, groups[f], start, ends[f]) == q && '{' !in q
    ensures SharedUrl(base, groups, start, ends, i) == q
    decreases i
  {
    if i == f + 1 {
      SharedAtFirst(base, groups, start, ends, f, a, q);
    } else {
      SharedAfterFirst(base, groups, start, ends, f, i - 1, a, q);
      FillResolved(q, groups[i - 1], start, ends[i - 1]);
      assert SharedUrl(base, groups, start, ends, i) == Fill(q, groups[i - 1], start, ends[i - 1]);
    }
  }

  /** The stages of the URL string, as written: the endpoint URL is the template with host
      and port filled in; group 0's id fills `{{appId}}`, after which no later id finds it;
      the fields of the first processed group then resolve it into that group's query URL,
      under group 0's id. */
  lemma UrlStages(host: string, port: Int32, groups: seq<AppGroup>, start: Long, ends: seq<Long>, f: nat)
    requires f < |groups| && |ends| == |groups| && Processed(groups[f]) && groups[0].appId.Some?
    requires Unbraced(Instance(Some(host), port), groups)
    ensures WithAppId(EndpointUrl(host, port), groups[0].appId.value) == Render(AppFilled(host, port, groups[0].appId.value))
    ensures forall x :: WithAppId(Render(AppFilled(host, port, groups[0].appId.value)), x)
                        == Render(AppFilled(host, port, groups[0].appId.value))
    ensures WithFields(Render(AppFilled(host, port, groups[0].appId.value)), groups[f], start, ends[f])
         == FirstUrl(host, port, groups, start, ends, f)
    ensures '{' !in FirstUrl(host, port, groups, start, ends, f)
  {
    var a0 := groups[0].appId.value;
    ReplaceEndpoint(host, port);
    ReplaceAppId(host, port, a0);
    forall x ensures WithAppId(Render(AppFilled(host, port, a0)), x) == Render(AppFilled(host, port, a0)) {
      ReplaceAppIdAgain(host, port, a0, x);
    }
    FieldsResolve(host, port, a0, groups[f], start, ends[f]);
  }

  /** As written, the request of every group the loop reached goes to `q`. */
  lemma RequestsAsWritten(base: string, groups: seq<AppGroup>, start: Long, ends: seq<Long>, issued: seq<nat>,
                          f: nat, a: string, q: string)
    requires |ends| == |groups| && IssuedOk(groups, issued)
    requires f < |groups| && FirstProcessed(groups, 0) == Some(f) && groups[0].appId.Some? && groups[f].appId.Some?
    requires WithAppId(base, groups[0].appId.value) == a
    requires forall x :: WithAppId(a, x) == a
    requires WithFields(a, groups[f], start, ends[f]) == q && '{' !in q
    ensures AllTo(Requests(AsWritten, base, groups, start, ends, issued), q)
  {
    var rs := Requests(AsWritten, base, groups, start, ends, issued);
    forall j | 0 <= j < |rs| ensures rs[j].url == q {
      var k := issued[j];
      SharedAfterFirst(base, groups, start, ends, f, k + 1, a, q);
    }
  }

  /** The first group with an application id, hosts and metrics leads `RequestingFrom`. */
  lemma {:induction false} RequestingFromFirst(groups: seq<AppGroup>, i: nat, f: nat)
    requires i <= |groups| && FirstProcessed(groups, i) == Some(f) && groups[f].appId.Some?
    ensures |RequestingFrom(groups, i)| > 0 && RequestingFrom(groups, i)[0] == f
    decreases |groups| - i
  {
    if i < f {
      RequestingFromFirst(groups, i + 1, f);
    }
  }

  /** The first group a cycle requests is the first processed group, and the loop got there
      with group 0's id and that group's own id present. */
  lemma FirstIssued(groups: seq<AppGroup>, issued: seq<nat>)
    requires |issued| > 0 && IssuedOk(groups, issued) && issued <= RequestingFrom(groups, 0)
    ensures FirstProcessed(groups, 0).Some? && issued[0] == FirstProcessed(groups, 0).value
    ensures groups[0].appId.Some? && groups[FirstProcessed(groups, 0).value].appId.Some?
  {
    var k0 := issued[0];
    assert Requesting(groups[k0]) && IdsBefore(groups, k0);
    var f := FirstProcessed(groups, 0).value;
    assert groups[0].appId.Some? && groups[f].appId.Some?;
    RequestingFromFirst(groups, 0, f);
  }

  /** Every request goes to `u`. */
  predicate AllTo(requests: seq<Request>, u: string)
  {
    forall k :: 0 <= k < |requests| ==> requests[k].url == u
  }

  /** The collector as written: every request of a cycle goes to one and the same URL, that of
      the first group with hosts and metrics, carrying that group's names and end time but the
      application id of the first group in the list, even when that group was skipped. No
      placeholder is left in it. (Provided the configured text has no `{`, which could make
      `replace` find a placeholder inside a value.) */
  lemma ReadReusesFirstUrl(ts: Long, fields: Fields, inst: Instance, groups: seq<AppGroup>, ends: seq<Long>,
                           fetches: seq<Fetch>, now: Long)
    requires |ends| == |groups| && |fetches| == |groups|
    requires Unbraced(inst, groups)
    ensures var rs := ReadRequests(AsWritten, ts, fields, inst, groups, ends, fetches, now);
      |rs| > 0 ==>
        && inst.hostname.Some? && groups[0].appId.Some? && FirstProcessed(groups, 0).Some?
        && rs[0].group == FirstProcessed(groups, 0).value
        && AllTo(rs, FirstUrl(inst.hostname.value, inst.port, groups, ts, ends, FirstProcessed(groups, 0).value))
        && '{' !in FirstUrl(inst.hostname.value, inst.port, groups, ts, ends, FirstProcessed(groups, 0).value)
  {
    var rs := ReadRequests(AsWritten, ts, fields, inst, groups, ends, fetches, now);
    if fields.Configured? && inst.hostname.Some? && |rs| > 0 {
      var h := inst.hostname.value;
      assert rs == LoopRequests(AsWritten, EndpointUrl(h, inst.port), groups, ts, ends, fetches, fields.client);
      LoopAsWritten(h, inst.port, groups, ts, ends, fetches, fields.client);
    }
  }

  /** `ReadReusesFirstUrl` for the group loop. */
  lemma LoopAsWritten(h: string, port: Int32, groups: seq<AppGroup>, start: Long, ends: seq<Long>,
                      fetches: seq<Fetch>, client: bool)
    requires |ends| == |groups| && |fetches| == |groups|
    requires Unbraced(Instance(Some(h), port), groups)
    ensures var rs := LoopRequests(AsWritten, EndpointUrl(h, port), groups, start, ends, fetches, client);
      |rs| > 0 ==>
        && groups[0].appId.Some? && FirstProcessed(groups, 0).Some?
        && rs[0].group == FirstProcessed(groups, 0).value
        && AllTo(rs, FirstUrl(h, port, groups, start, ends, FirstProcessed(groups, 0).value))
        && '{' !in FirstUrl(h, port, groups, start, ends, FirstProcessed(groups, 0).value)
  {
    var st0 := LoopState(true, [], []);
    var st := Run(st0, groups, fetches, client, 0);
    RunIssuedOk(st0, groups, fetches, client, 0);
    RunMeaning(st0, groups, fetches, client, 0);
    if |st.issued| > 0 {
      IssuedAsWritten(h, port, groups, start, ends, st.issued);
    }
  }

  /** As written, requests issued for a leading part of the groups with an id, hosts and
      metrics all go to the URL of the first processed group, under group 0's id. */
  lemma IssuedAsWritten(h: string, port: Int32, groups: seq<AppGroup>, start: Long, ends: seq<Long>,
                        issued: seq<nat>)
    requires |ends| == |groups| && |issued| > 0
    requires IssuedOk(groups, issued) && issued <= RequestingFrom(groups, 0)
    requires Unbraced(Instance(Some(h), port), groups)
    ensures groups[0].appId.Some? && FirstProcessed(groups, 0).Some?
    ensures issued[0] == FirstProcessed(groups, 0).value
    ensures AllTo(Requests(AsWritten, EndpointUrl(h, port), groups, start, ends, issued),
                  FirstUrl(h, port, groups, start, ends, FirstProcessed(groups, 0).value))
    ensures '{' !in FirstUrl(h, port, groups, start, ends, FirstProcessed(groups, 0).value)
  {
    FirstIssued(groups, issued);
    var f := FirstProcessed(groups, 0).value;
    UrlStages(h, port, groups, start, ends, f);
    RequestsAsWritten(EndpointUrl(h, port), groups, start, ends, issued, f,
                      Render(AppFilled(h, port, groups[0].appId.value)), FirstUrl(h, port, groups, start, ends, f));
  }

  // ---------------------------------------------------------------------------
  // The URLs built afresh for every group

  /** The request carries the URL built for its own group. */
  predicate IsOwnRequest(host: string, port: Int32, groups: seq<AppGroup>, start: Long, ends: seq<Long>, r: Request)
    requires |ends| == |groups|
  {
    && r.group < |groups|
    && var g := groups[r.group];
       && Requesting(g)
       && r.url == BuildQuery(GroupQuery(host, port, g.appId.value, g, start, ends[r.group]))
  }

  /** Built afresh, a group's URL carries its own application id, names and end time. */
  lemma GroupUrlPerGroup(host: string, port: Int32, groups: seq<AppGroup>, start: Long, ends: seq<Long>, k: nat)
    requires k < |groups| && |ends| == |groups| && Requesting(groups[k])
    requires Unbraced(Instance(Some(host), port), groups)
    ensures IsOwnRequest(host, port, groups, start, ends,
                         Request(k, GroupUrl(PerGroup, EndpointUrl(host, port), groups, start, ends, k)))
  {
    var g := groups[k];
    ReplaceEndpoint(host, port);
    ReplaceAppId(host, port, g.appId.value);
    FieldsResolve(host, port, g.appId.value, g, start, ends[k]);
  }

  /** Built afresh, each group's request carries its own application id, names and end time. */
  lemma ReadCorrectedUsesOwnGroup(ts: Long, fields: Fields, inst: Instance, groups: seq<AppGroup>, ends: seq<Long>,
                                  fetches: seq<Fetch>, now: Long)
    requires |ends| == |groups| && |fetches| == |groups|
    requires Unbraced(inst, groups)
    ensures var rs := ReadRequests(PerGroup, ts, fields, inst, groups, ends, fetches, now);
      forall j :: 0 <= j < |rs| ==> IsOwnRequest(Text(inst.hostname), inst.port, groups, ts, ends, rs[j])
  {
    var rs := ReadRequests(PerGroup, ts, fields, inst, groups, ends, fetches, now);
    if fields.Configured? && inst.hostname.Some? {
      var h := inst.hostname.value;
      var st0 := LoopState(true, [], []);
      var st := Run(st0, groups, fetches, fields.client, 0);
      RunIssuedOk(st0, groups, fetches, fields.client, 0);
      forall j | 0 <= j < |rs|
        ensures IsOwnRequest(h, inst.port, groups, ts, ends, rs[j])
      {
        GroupUrlPerGroup(h, inst.port, groups, ts, ends, st.issued[j]);
      }
    }
  }

  /** The two builders issue the same requests, group for group; the first request's URL is
      the same whenever the first group in the list has the application id of the first
      processed one, in particular when the first group is itself processed. */
  lemma FirstRequestAgrees(ts: Long, fields: Fields, inst: Instance, groups: seq<AppGroup>, ends: seq<Long>,
                           fetches: seq<Fetch>, now: Long)
    requires |ends| == |groups| && |fetches| == |groups|
    requires Unbraced(inst, groups)
    ensures var c := ReadRequests(AsWritten, ts, fields, inst, groups, ends, fetches, now);
            var d := ReadRequests(PerGroup, ts, fields, inst, groups, ends, fetches, now);
      && |c| == |d|
      && (forall j :: 0 <= j < |c| ==> c[j].group == d[j].group)
      && (|c| > 0 && FirstProcessed(groups, 0).Some?
          && groups[0].appId == groups[FirstProcessed(groups, 0).value].appId ==>
            c[0].url == d[0].url)
  {
    var c := ReadRequests(AsWritten, ts, fields, inst, groups, ends, fetches, now);
    var d := ReadRequests(PerGroup, ts, fields, inst, groups, ends, fetches, now);
    assert GroupsOf(c) == GroupsOf(d);
    forall j | 0 <= j < |c| ensures c[j].group == d[j].group {
      assert GroupsOf(c)[j] == GroupsOf(d)[j];
    }
    if |c| > 0 {
      ReadReusesFirstUrl(ts, fields, inst, groups, ends, fetches, now);
      ReadCorrectedUsesOwnGroup(ts, fields, inst, groups, ends, fetches, now);
    }
  }

  /** Two groups with the same hosts and metrics but application ids of different lengths,
      both fetched with an IOException at the same clock reading: as written, the second
      request repeats the first URL, first id included, where the second group's own URL
      carries its own id. */
  lemma SecondGroupGetsFirstId(inst: Instance, a0: string, a1: string, hosts: seq<JString>,
                               metrics: seq<JString>, ts: Long, end: Long, now: Long)
    requires |a0| != |a1| && |hosts| > 0 && |metrics| > 0
    requires Unbraced(inst, [AppGroup(Some(a0), hosts, metrics), AppGroup(Some(a1), hosts, metrics)])
    requires inst.hostname.Some?
    ensures var groups := [AppGroup(Some(a0), hosts, metrics), AppGroup(Some(a1), hosts, metrics)];
            var c := ReadRequests(AsWritten, ts, Configured(true), inst, groups, [end, end], [IOError, IOError], now);
            var d := ReadRequests(PerGroup, ts, Configured(true), inst, groups, [end, end], [IOError, IOError], now);
            && |c| == 2 && |d| == 2
            && c[1].url == c[0].url
            && c[1].url != d[1].url
  {
    var g0 := AppGroup(Some(a0), hosts, metrics);
    var g1 := AppGroup(Some(a1), hosts, metrics);
    var groups := [g0, g1];
    var ends: seq<Long> := [end, end];
    var fetches := [IOError, IOError];
    var fields := Configured(true);
    var c := ReadRequests(AsWritten, ts, fields, inst, groups, ends, fetches, now);
    var d := ReadRequests(PerGroup, ts, fields, inst, groups, ends, fetches, now);
    assert AllGroupsOk(groups, fetches, true, 0) by {
      assert GroupOk(g0, IOError, true) && GroupOk(g1, IOError, true);
    }
    assert RequestingFrom(groups, 0) == [0, 1] by {
      assert Requesting(g0) && Requesting(g1);
      assert RequestingFrom(groups, 2) == [];
      assert RequestingFrom(groups, 1) == [1];
    }
    ReadMeaning(ts, fields, inst, groups, fetches, now);
    assert GroupsOf(c)[1] == c[1].group;
    ReadReusesFirstUrl(ts, fields, inst, groups, ends, fetches, now);
    ReadCorrectedUsesOwnGroup(ts, fields, inst, groups, ends, fetches, now);
    var h := inst.hostname.value;
    assert IsOwnRequest(h, inst.port, groups, ts, ends, d[1]);
    assert GroupsOf(d)[1] == d[1].group;
    var q := GroupQuery(h, inst.port, a0, g0, ts, end);
    assert GroupQuery(h, inst.port, a1, g1, ts, end) == q.(appId := a1);
    AppIdShowsInUrl(q, a1);
  }
}

=== FILE: url_template.dfy ===
/** The query URL of the collector. `Template` is the constant `AmbariMetrics.URL` cut
    into literal pieces and `{{name}}` placeholders (its text is `Render(Template)`), which
    makes it possible to say exactly what a chain of `String.replace` calls does to it.
    `BuildQuery` is the fully resolved URL for one set of query parameters. */
module UrlTemplate {
  import opened JavaLang

  datatype Segment = Lit(text: string) | Hole(name: string)

  /** The text `{{name}}` that stands for a hole in the URL string. */
  function Placeholder(name: string): (r: string)
    ensures |r| == |name| + 4
    ensures r[0] == '{' && r[1] == '{'
  {
    "{{" + name + "}}"
  }

  function SegmentText(s: Segment): string
  {
    match s
    case Lit(t) => t
    case Hole(n) => Placeholder(n)
  }

  /** The string a template spells out. */
  function Render(t: seq<Segment>): string
  {
    if |t| == 0 then "" else SegmentText(t[0]) + Render(t[1..])
  }

  /** Filling every hole named `n` with the literal `v`. */
  function Subst(t: seq<Segment>, n: string, v: string): (r: seq<Segment>)
    ensures |r| == |t|
    ensures Hole(n) !in r
    ensures forall i :: 0 <= i < |t| && t[i] != Hole(n) ==> r[i] == t[i]
    ensures forall i :: 0 <= i < |t| && t[i] == Hole(n) ==> r[i] == Lit(v)
  {
    seq(|t|, i requires 0 <= i < |t| => if t[i] == Hole(n) then Lit(v) else t[i])
  }

  /** A placeholder name: non-empty and free of braces. */
  predicate NameOk(n: string)
  {
    |n| > 0 && '{' !in n && '}' !in n
  }

  predicate SegmentOk(s: Segment)
  {
    match s
    case Lit(t) => '{' !in t
    case Hole(n) => NameOk(n)
  }

  /** Literal text never contains `{`, so the only braces are those of the holes. */
  predicate WellFormed(t: seq<Segment>)
  {
    forall s :: s in t ==> SegmentOk(s)
  }

  predicate HoleFree(t: seq<Segment>)
  {
    forall s :: s in t ==> s.Lit?
  }

  // ---------------------------------------------------------------------------
  // The bridge between the string and the segments

  /** `p` does not start at `i` in `s` when they differ at the `k`-th character of `p`. */
  lemma MismatchAt(s: string, p: string, i: nat, k: nat)
    requires i <= |s| && k < |p|
    requires i + k >= |s| || s[i + k] != p[k]
    ensures !MatchAt(s, p, i)
  {
    if i + k < |s| {
      assert s[i..][k] == s[i + k];
    }
  }

  /** Inside the text of a hole `m` no placeholder of another name `n` can start. */
  lemma OtherHoleHasNoMatch(m: string, n: string, rest: string)
    requires NameOk(m) && NameOk(n) && m != n
    ensures forall i :: 0 <= i < |Placeholder(m)| ==> !MatchAt(Placeholder(m) + rest, Placeholder(n), i)
  {
    var pm := Placeholder(m);
    var pn := Placeholder(n);
    var s := pm + rest;
    forall i | 0 <= i < |pm|
      ensures !MatchAt(s, pn, i)
    {
      if i == 0 {
        if |m| == |n| {
          var k :| 0 <= k < |m| && m[k] != n[k];
          assert s[k + 2] == m[k] && pn[k + 2] == n[k];
          MismatchAt(s, pn, 0, k + 2);
        } else if |m| < |n| {
          assert s[2 + |m|] == '}';
          assert pn[2 + |m|] == n[|m|] && n[|m|] in n;
          MismatchAt(s, pn, 0, 2 + |m|);
        } else {
          assert pn[2 + |n|] == '}';
          assert s[2 + |n|] == m[|n|] && m[|n|] in m;
          MismatchAt(s, pn, 0, 2 + |n|);
        }
      } else if i == 1 {
        assert s[2] == m[0] && m[0] in m;
        MismatchAt(s, pn, 1, 1);
      } else if i < 2 + |m| {
        assert s[i] == m[i - 2] && m[i - 2] in m;
        MismatchAt(s, pn, i, 0);
      } else {
        assert s[i] == '}';
        MismatchAt(s, pn, i, 0);
      }
    }
  }

  /** `String.replace` on the rendered template is hole filling on the segments: this is
      what lets the model speak of "the placeholders that remain" in a URL string. */
  lemma {:induction false} ReplaceIsSubst(t: seq<Segment>, n: string, v: string)
    requires WellFormed(t) && NameOk(n)
    ensures Replace(Render(t), Placeholder(n), v) == Render(Subst(t, n, v))
    decreases |t|
  {
    var p := Placeholder(n);
    if |t| > 0 {
      var rest := Render(t[1..]);
      assert Render(t) == SegmentText(t[0]) + rest;
      assert t[0] in t;
      assert WellFormed(t[1..]) by {
        forall s | s in t[1..] ensures SegmentOk(s) {
          assert s in t;
        }
      }
      ReplaceIsSubst(t[1..], n, v);
      assert Subst(t, n, v)[1..] == Subst(t[1..], n, v);
      var r := Replace(rest, p, v);
      match t[0]
      case Lit(x) =>
        forall i | 0 <= i < |x|
          ensures !MatchAt(x + rest, p, i)
        {
          assert (x + rest)[i] == x[i];
          assert x[i] in x;
        }
        ReplaceSkipsPrefix(x, rest, p, v);
      case Hole(m) =>
        if m == n {
          var s := p + rest;
          assert p <= s;
          assert s[|p|..] == rest;
        } else {
          OtherHoleHasNoMatch(m, n, rest);
          ReplaceSkipsPrefix(Placeholder(m), rest, p, v);
        }
    }
  }

  /** A template whose holes are all filled, and whose fillings have no `{`, renders to a
      string in which no placeholder at all occurs. */
  lemma {:induction false} FilledRendersBraceFree(t: seq<Segment>)
    requires WellFormed(t) && HoleFree(t)
    ensures '{' !in Render(t)
    decreases |t|
  {
    if |t| > 0 {
      assert t[0] in t;
      assert WellFormed(t[1..]) && HoleFree(t[1..]) by {
        forall s | s in t[1..] ensures SegmentOk(s) && s.Lit? {
          assert s in t;
        }
      }
      FilledRendersBraceFree(t[1..]);
    }
  }

  // ---------------------------------------------------------------------------
  // The URL of AmbariMetrics

  const HostKey := "ambari_collector_host"
  const PortKey := "ambari_collector_port"
  const MetricNameKey := "metric_name"
  const HostnameKey := "hostname"
  const AppIdKey := "appId"
  const StartKey := "start_time"
  const EndKey := "end_time"

  const SchemeText := "http://"
  const PortSeparator := ":"
  const PathText := "/ws/v1/timeline/metrics?metricNames="
  const HostnameParam := "&hostname="
  const AppIdParam := "&appId="
  const PrecisionStartParam := "&precision=seconds&startTime="
  const EndParam := "&endTime="

  /** The constant `URL` of the collector, cut at its seven placeholders. */
  const Template: seq<Segment> := [
    Lit(SchemeText), Hole(HostKey), Lit(PortSeparator), Hole(PortKey),
    Lit(PathText), Hole(MetricNameKey),
    Lit(HostnameParam), Hole(HostnameKey),
    Lit(AppIdParam), Hole(AppIdKey),
    Lit(PrecisionStartParam), Hole(StartKey),
    Lit(EndParam), Hole(EndKey)]

  lemma LongLiteralsOk()
    ensures '{' !in PathText && '{' !in PrecisionStartParam
  {
    assert '{' !in PathText;
  }

  lemma ShortLiteralsOk()
    ensures '{' !in SchemeText && '{' !in PortSeparator && '{' !in HostnameParam
    ensures '{' !in AppIdParam && '{' !in EndParam
  {
  }

  lemma KeysOk()
    ensures NameOk(HostKey) && NameOk(PortKey) && NameOk(MetricNameKey) && NameOk(HostnameKey)
    ensures NameOk(AppIdKey) && NameOk(StartKey) && NameOk(EndKey)
  {
    assert NameOk(HostKey);
    assert NameOk(PortKey);
  }

  lemma TemplateWellFormed()
    ensures WellFormed(Template)
  {
    var t := Template;
    LongLiteralsOk();
    ShortLiteralsOk();
    KeysOk();
    forall s | s in t ensures SegmentOk(s) {
      var k :| 0 <= k < |t| && t[k] == s;
    }
  }

  /** The parameters of one query: the upstream endpoint, the comma-joined name lists, the
      application id and the time window in epoch milliseconds. */
  datatype Query = Query(host: string, port: Int32, metricNames: string, hostnames: string,
                         appId: string, start: Long, end: Long)

  /** The template with every placeholder replaced by its value from `q`:
      `http://<host>:<port>/ws/v1/timeline/metrics?metricNames=<metricNames>&hostname=<hostnames>`
      `&appId=<appId>&precision=seconds&startTime=<start>&endTime=<end>`. */
  function Filled(q: Query): (r: seq<Segment>)
    ensures |r| == |Template|
    ensures HoleFree(r)
  {
    [Lit(SchemeText), Lit(q.host), Lit(PortSeparator), Lit(LongStr(q.port)),
     Lit(PathText), Lit(q.metricNames),
     Lit(HostnameParam), Lit(q.hostnames),
     Lit(AppIdParam), Lit(q.appId),
     Lit(PrecisionStartParam), Lit(LongStr(q.start)),
     Lit(EndParam), Lit(LongStr(q.end))]
  }

  /** The URL of one query, built afresh from the constant template. */
  function BuildQuery(q: Query): string
  {
    Render(Filled(q))
  }

  predicate BraceFreeQuery(q: Query)
  {
    '{' !in q.host && '{' !in q.metricNames && '{' !in q.hostnames && '{' !in q.appId
  }

  lemma LongStrBraceFree(x: int)
    ensures '{' !in LongStr(x)
  {
    var r := LongStr(x);
    forall i | 0 <= i < |r| ensures r[i] != '{' {
      assert IsDigit(r[i]) || r[i] == '-';
    }
  }

  /** A query built from text without `{` leaves no placeholder in its URL. */
  lemma BuildQueryBraceFree(q: Query)
    requires BraceFreeQuery(q)
    ensures '{' !in BuildQuery(q)
  {
    LongLiteralsOk();
    ShortLiteralsOk();
    LongStrBraceFree(q.port);
    LongStrBraceFree(q.start);
    LongStrBraceFree(q.end);
    var f := Filled(q);
    forall s | s in f ensures SegmentOk(s) {
      var k :| 0 <= k < |f| && f[k] == s;
    }
    FilledRendersBraceFree(f);
  }

  // ---------------------------------------------------------------------------
  // The stages the collector's string passes through

  /** After the endpoint's host and port are written in, before any group. */
  function EndpointFilled(host: string, port: Int32): seq<Segment>
  {
    Subst(Subst(Template, HostKey, host), PortKey, LongStr(port))
  }

  /** After the application id has been written in as well. */
  function AppFilled(host: string, port: Int32, appId: string): seq<Segment>
  {
    Subst(EndpointFilled(host, port), AppIdKey, appId)
  }

  /** Every placeholder filled, in the order the collector fills them. */
  function Resolve(q: Query): seq<Segment>
  {
    var t := AppFilled(q.host, q.port, q.appId);
    Subst(Subst(Subst(Subst(t, HostnameKey, q.hostnames), MetricNameKey, q.metricNames),
                StartKey, LongStr(q.start)), EndKey, LongStr(q.end))
  }

  /** Filling the seven placeholders in the collector's order yields the freshly built URL. */
  lemma ResolveIsBuildQuery(q: Query)
    ensures Resolve(q) == Filled(q)
    ensures Render(Resolve(q)) == BuildQuery(q)
  {
  }

  // ---------------------------------------------------------------------------
  // String.replace on each stage

  lemma SubstKeepsWellFormed(t: seq<Segment>, n: string, v: string)
    requires WellFormed(t) && '{' !in v
    ensures WellFormed(Subst(t, n, v))
  {
    var r := Subst(t, n, v);
    forall s | s in r ensures SegmentOk(s) {
      var k :| 0 <= k < |r| && r[k] == s;
      assert t[k] in t;
    }
  }

  lemma SubstAbsentHole(t: seq<Segment>, n: string, v: string)
    requires Hole(n) !in t
    ensures Subst(t, n, v) == t
  {
    var r := Subst(t, n, v);
    forall k | 0 <= k < |t| ensures r[k] == t[k] {
      assert t[k] in t;
    }
  }

  /** Writing the endpoint's host and port into the constant URL. */
  lemma ReplaceEndpoint(host: string, port: Int32)
    requires '{' !in host
    ensures Replace(Replace(Render(Template), Placeholder(HostKey), host), Placeholder(PortKey), LongStr(port))
         == Render(EndpointFilled(host, port))
    ensures WellFormed(EndpointFilled(host, port))
  {
    TemplateWellFormed();
    KeysOk();
    LongStrBraceFree(port);
    ReplaceIsSubst(Template, HostKey, host);
    SubstKeepsWellFormed(Template, HostKey, host);
    ReplaceIsSubst(Subst(Template, HostKey, host), PortKey, LongStr(port));
    SubstKeepsWellFormed(Subst(Template, HostKey, host), PortKey, LongStr(port));
  }

  /** Writing the application id into the URL once the endpoint is in. */
  lemma ReplaceAppId(host: string, port: Int32, appId: string)
    requires '{' !in host && '{' !in appId
    ensures Replace(Render(EndpointFilled(host, port)), Placeholder(AppIdKey), appId)
         == Render(AppFilled(host, port, appId))
    ensures WellFormed(AppFilled(host, port, appId))
  {
    ReplaceEndpoint(host, port);
    KeysOk();
    ReplaceIsSubst(EndpointFilled(host, port), AppIdKey, appId);
    SubstKeepsWellFormed(EndpointFilled(host, port), AppIdKey, appId);
  }

  /** Once an application id is in, a second one finds no `{{appId}}` left to replace. */
  lemma ReplaceAppIdAgain(host: string, port: Int32, appId: string, other: string)
    requires '{' !in host && '{' !in appId
    ensures Replace(Render(AppFilled(host, port, appId)), Placeholder(AppIdKey), other)
         == Render(AppFilled(host, port, appId))
  {
    ReplaceAppId(host, port, appId);
    KeysOk();
    var t := AppFilled(host, port, appId);
    ReplaceIsSubst(t, AppIdKey, other);
    SubstAbsentHole(t, AppIdKey, other);
  }

  /** Writing one group's names and the window into the URL resolves it completely. */
  lemma ReplaceGroupFields(q: Query)
    requires BraceFreeQuery(q)
    ensures Replace(Replace(Replace(Replace(Render(AppFilled(q.host, q.port, q.appId)),
              Placeholder(HostnameKey), q.hostnames), Placeholder(MetricNameKey), q.metricNames),
              Placeholder(StartKey), LongStr(q.start)), Placeholder(EndKey), LongStr(q.end))
         == BuildQuery(q)
  {
    ReplaceAppId(q.host, q.port, q.appId);
    KeysOk();
    LongStrBraceFree(q.start);
    LongStrBraceFree(q.end);
    var t0 := AppFilled(q.host, q.port, q.appId);
    var t1 := Subst(t0, HostnameKey, q.hostnames);
    var t2 := Subst(t1, MetricNameKey, q.metricNames);
    var t3 := Subst(t2, StartKey, LongStr(q.start));
    ReplaceIsSubst(t0, HostnameKey, q.hostnames);
    SubstKeepsWellFormed(t0, HostnameKey, q.hostnames);
    ReplaceIsSubst(t1, MetricNameKey, q.metricNames);
    SubstKeepsWellFormed(t1, MetricNameKey, q.metricNames);
    ReplaceIsSubst(t2, StartKey, LongStr(q.start));
    SubstKeepsWellFormed(t2, StartKey, LongStr(q.start));
    ReplaceIsSubst(t3, EndKey, LongStr(q.end));
    ResolveIsBuildQuery(q);
  }

  // ---------------------------------------------------------------------------
  // Telling URLs apart

  lemma {:induction false} RenderAppend(a: seq<Segment>, b: seq<Segment>)
    ensures Render(a + b) == Render(a) + Render(b)
    decreases |a|
  {
    if |a| > 0 {
      assert (a + b)[1..] == a[1..] + b;
      RenderAppend(a[1..], b);
      ConcatAssoc(SegmentText(a[0]), Render(a[1..]), Render(b));
    } else {
      assert a + b == b;
    }
  }

  /** Two queries that differ only in an application id of another length have different
      URLs. */
  lemma AppIdShowsInUrl(q: Query, other: string)
    requires |other| != |q.appId|
    ensures BuildQuery(q) != BuildQuery(q.(appId := other))
  {
    var q' := q.(appId := other);
    var f, f' := Filled(q), Filled(q');
    assert f == f[..9] + [Lit(q.appId)] + f[10..];
    assert f' == f[..9] + [Lit(other)] + f[10..];
    RenderAppend(f[..9] + [Lit(q.appId)], f[10..]);
    RenderAppend(f[..9], [Lit(q.appId)]);
    RenderAppend(f[..9] + [Lit(other)], f[10..]);
    RenderAppend(f[..9], [Lit(other)]);
    assert Render([Lit(q.appId)]) == q.appId;
    assert Render([Lit(other)]) == other;
    assert |BuildQuery(q)| != |BuildQuery(q')|;
  }
}
